=== FILE: README.md ===
# Music player core: asset cache, URL resolution, catalog and navigation

A Dafny model of the core of a browser music player that streams albums and
release previews from an object-store bucket. The player has four parts:

- **`AudioCache`**, the offline asset cache. It keeps two Cache-API regions:
  binaries keyed by signed URL, and metadata records keyed by album or release id.
  It also memoises object-URL handles per cover, per song (`albumId:songKey`) and
  per release cover and audio.
- **The presigned-URL service.** It hands out a cached handle when one exists and
  a freshly signed URL otherwise. It upserts a cover into the cache, pre-caches a
  whole album, and scans the bucket into albums and songs. It also derives the
  "latest" and "upcoming" release slots from the cover file name
  (`Title-Words-YYYY-MM-DD.jpg`) and from an optional `.txt` sidecar.
- **The player component's index arithmetic**: the three-album carousel, next and
  previous track, restoring the saved album and song on load, and the `m:ss` clock.
- **The legacy prefix scan**, an older copy of the catalog derivation.

## Modelling choices

- Every asynchronous method is one atomic step over an immutable `Cache.State`.
  A step returns `Out(state, value)`.
- The four handle memo maps are one map keyed by a `Slot` with four constructors.
- `URL.createObjectURL` draws a fresh counter value, and revocation adds the
  value to a `revoked` set. `Registry` is the invariant over handles: memoised
  handles are issued, not revoked and pairwise distinct.
- The clock is a `now` parameter in milliseconds.
- Network fetches are a map `fetched` from URL to body. A URL is a key exactly
  when its fetch yields an ok response.
- The signer is `sign: string -> Option<Url>`; `None` means signing throws.
- A bucket listing is `Option<seq<string>>`; `None` means the listing throws.
- The sidecar reader and the per-prefix lister are function parameters too.
- JavaScript regular expressions are written out as functions, including their
  greedy `\s*` and the backtracking of `Title:\s*([^\n]+)`.
- JavaScript `%`, `Array.prototype.slice` and `parseInt` are modelled with
  their own rounding and clamping rules.

Modules: `Types`, `Text` (string helpers), `Cache`, `CacheProperties`, `Catalog`,
`Releases`, `Resolve`, `Player`, `Legacy`.

## Model

| member | source | states |
|---|---|---|
| Cache.Init | src/service/cacheService.ts:22-36 | A new cache has empty regions, no flags and satisfies the handle invariant. |
| Cache.SongCacheKey | src/service/cacheService.ts:466 | The memo key `albumId:songKey` has the album id before the colon and the song key after it, so both can be read back. |
| Cache.IsAlbumCached | src/service/cacheService.ts:374-407 | True exactly when an album-shaped record exists, has not expired and records at least one song. An expired record is cleared as a side effect; otherwise nothing changes. |
| Cache.AcquireLock | src/service/cacheService.ts:277-287 | The lock is taken exactly when the Cache API exists and the album is not already in progress. Taking it only raises that album's flag; otherwise nothing changes. |
| Cache.CacheSongs | src/service/cacheService.ts:318-343 | The song loop records exactly the songs with a non-empty supplied URL and an ok fetch, each under its supplied URL. It stores exactly their bodies. |
| Cache.PersistAlbum | src/service/cacheService.ts:298-358 | The record written holds the stored song map, the cover URL and expiry `now + 7 days`. Every new binary is a fetched body. The cover is stored when its fetch succeeds. Nothing but files and metadata changes. |
| Cache.CacheAlbumLocked | src/service/cacheService.ts:289-370 | The flag is released on every path. An album found cached changes nothing but releasing the flag. Otherwise the album's record becomes the stored subset, with the cover URL and a 7-day expiry, and every other record is kept. The files grow from the state after the expiry re-check, which first drops an expired record's binaries. Every new file is a fetched body: the cover when its fetch succeeded and each stored song's URL. The requested URLs are the cover plus one per song with a URL. |
| Cache.CacheAlbum | src/service/cacheService.ts:272-371 | The call is a no-op when the API is missing or the album is in progress, and changes nothing at all when the album is already cached. Otherwise it writes the record of what succeeded and keeps every other record. The files grow from the state after the expiry re-check, which first drops an expired record's binaries, and they then hold the fetched cover and each stored song binary. Flags end as they began, and the handle invariant is kept. |
| CacheProperties.CachedAlbumServed | src/service/cacheService.ts:289-370 | After caching, every stored song and a fetched cover are served from the cache for 7 days, and other albums' live records are untouched. |
| Cache.GetCoverUrl | src/service/cacheService.ts:413-453 | A memoised handle is returned unchanged without reading metadata. Otherwise a handle is issued exactly for a live record whose cover binary is present (both directions). An expired record is cleared with `clearAlbum`, and every other miss leaves the state unchanged. A returned handle is memoised and not revoked. A fresh handle is added under its own slot only; every other memo entry keeps its handle. |
| Cache.GetSongUrl | src/service/cacheService.ts:459-511 | The same contract for songs under the key `albumId:songKey`: a handle is issued exactly when the live album record maps the song to a non-empty URL whose binary is present. An expired record is cleared with `clearAlbum`, and every other miss leaves the state unchanged. A fresh handle is added under its own key only; every other memo entry keeps its handle. |
| Cache.ClearAlbum | src/service/cacheService.ts:514-556 | The record, the cover and every recorded song binary are removed, and the cover and song handles are revoked. A release-shaped record keeps its metadata because the song step throws after the cover is gone. |
| Cache.CacheRelease | src/service/cacheService.ts:54-127 | The release record is always written with a 7-day expiry. The audio is fetched only when both the audio URL and the release key are non-empty. Each requested URL whose fetch succeeded holds its fetched body, possibly replacing an older one. Every other binary keeps its body, nothing is deleted, and only files and metadata change. |
| Cache.GetReleaseCoverUrl | src/service/cacheService.ts:133-176 | The memoised handle, else a handle exactly for a live record whose cover binary is present. An expired record is cleared with `clearRelease`, and every other miss leaves the state unchanged. A fresh handle is added under its own slot only; every other memo entry keeps its handle. |
| Cache.GetReleaseAudioUrl | src/service/cacheService.ts:182-228 | The memoised handle. Otherwise null for a live record without audio, and a handle exactly when the record's audio binary is present. An expired record is cleared with `clearRelease`, and every other miss leaves the state unchanged. A fresh handle is added under its own slot only; every other memo entry keeps its handle. |
| Cache.ClearRelease | src/service/cacheService.ts:231-269 | The record and cover binary are removed and the cover handle is revoked. The audio binary and handle are removed only when the record names an audio URL. |
| Cache.ClearAll | src/service/cacheService.ts:559-594 | Every memoised handle is revoked, and the memo maps and both regions are emptied. The in-progress flags survive. |
| CacheProperties.CachedUntilExpiry | src/service/cacheService.ts:345-358 | After caching, the album counts as cached at a later time exactly when that time is within 7 days and at least one song was stored. |
| CacheProperties.PartialCaching | src/service/cacheService.ts:319-358 | With three songs whose second fetch fails, the record holds exactly songs one and three under their URLs, and the album counts as cached. |
| CacheProperties.RacingCallsRunOnce | src/service/cacheService.ts:279-294 | While a first call holds the flag, a second call changes nothing. When the first finishes, the flag is down and the record is the first call's. |
| CacheProperties.SongHandleStable | src/service/cacheService.ts:466-471 | Once a song handle is issued, every later lookup returns the same handle and leaves the state unchanged. |
| CacheProperties.SongHandleStableAcrossLookups | src/service/cacheService.ts:466-471 | A song handle survives any other album's cover or song lookup and any release cover or audio lookup, provided none of them clears an expired record; the song's next lookup returns it. |
| CacheProperties.ClearAlbumRevokesSongHandle | src/service/cacheService.ts:536-546 | A `clearAlbum` revokes a song handle issued before it, and the next lookup misses. |
| CacheProperties.ClearAlbumRevokesCoverHandle | src/service/cacheService.ts:528-534 | The same for the album cover handle. |
| CacheProperties.ClearAllForgetsEverything | src/service/cacheService.ts:559-594 | After `clearAll` all five lookups miss, and every handle memoised before is revoked. |
| CacheProperties.ReleaseWithoutAudio | src/service/cacheService.ts:86-104 | A release cached without an audio URL requests only the cover and never yields an audio handle. |
| CacheProperties.SongCacheKeyInjective | src/service/cacheService.ts:466 | Memo keys `albumId:songKey` with `/`-free album ids and keys under `albums/` identify the pair uniquely. |
| CacheProperties.ClearAlbumSparesOtherAlbums | src/service/cacheService.ts:536-546 | Clearing one catalog album keeps every other catalog album's song handles. |
| CacheProperties.ScannedSongCacheKeysDistinct | src/service/presignedUrlService.ts:226-289 | Songs of scanned albums share a memo key only when they share album id and object key. |
| Catalog.Find | src/service/presignedUrlService.ts:235-240 | The index of the first key satisfying the predicate, or none when no key does. |
| Catalog.Filter | src/service/presignedUrlService.ts:243-248 | A key is kept exactly when it is listed and satisfies the predicate. |
| Catalog.FilterAppend | src/service/presignedUrlService.ts:243-248 | Filtering distributes over concatenation, keeps a single key exactly when it satisfies the predicate and maps the empty list to itself, which fixes the result's order and repeats. |
| Catalog.StripImageExt | src/service/presignedUrlService.ts:339-342 | A prefix of the name; what was removed is an image extension exactly when the name has one, and otherwise nothing is removed. |
| Catalog.StripAudioExt | src/service/presignedUrlService.ts:270-273 | The same for the audio extensions. |
| Catalog.FolderOf | src/service/presignedUrlService.ts:205-211 | A key's album folder is slash-free and is `f` exactly when the key starts with `albums/f/`, so folder detection and the per-folder filter agree. |
| Catalog.AddFolders | src/service/presignedUrlService.ts:202-213 | The insertion-ordered folder set: it keeps its seed as a prefix, has no repeats when the seed has none, and holds a folder exactly when it is seeded or some key lies in it. The added folders are new and ordered by the index of their first key. |
| Catalog.AlbumFolders | src/service/presignedUrlService.ts:202-213 | The listing's album folders, each once, in the order of their first key. |
| Catalog.MakeAlbum | src/service/presignedUrlService.ts:234-289 | An album exists exactly when an image key exists. Its id, title and artist come from the folder name, and its cover is the first image. Its songs are exactly the audio keys, in order, each with its id, title, album title and zero duration. |
| Catalog.Scan | src/service/presignedUrlService.ts:186-301 | A failed listing gives the empty library. Otherwise album `i` is the album of the `i`-th folder, in first-appearance order, among the folders holding an image: one album per such folder, in that order. The song list is the albums' songs concatenated. |
| Catalog.ScannedAlbumsHaveSlashFreeIds | src/service/presignedUrlService.ts:208-211 | Scanned album ids contain no `/`, and every scanned song key lies under `albums/`. |
| Releases.TrailingDate | src/service/presignedUrlService.ts:345 | The name ends in `YYYY-MM-DD` exactly when a date is returned, and that date is the name's last ten characters. |
| Releases.TitlePart | src/service/presignedUrlService.ts:351 | For a dated name, the hyphen and date are removed when the hyphen is there, so `title-date` splits back into the two; without the hyphen the name is kept whole. |
| Releases.DatedNameRoundTrip | src/service/presignedUrlService.ts:345-351 | `title-date` is read back as that date and that title part. |
| Releases.TitleCase | src/service/presignedUrlService.ts:354-359 | Capitalising each hyphen-separated word and joining with spaces equals the character-wise rule. Hyphens become spaces, the first letter of each word is upper-cased and the rest lower-cased. |
| Releases.CoverFallbackIffNamedCover | src/service/presignedUrlService.ts:369-372 | The default-title fallback fires exactly when the file name itself reads "cover" in any case. |
| Releases.ReadName | src/service/presignedUrlService.ts:337-374 | The date is the name's trailing date. A dated name's title is the title-cased title part. An undated name's title is its title case, or the default when the name is "cover". |
| Releases.LatestRelease | src/service/presignedUrlService.ts:311-383 | A release exists exactly when an image key exists. The cover is the first image, and the audio key is the first audio key or "" when there is none. The date is the file name's or today, and the title is read from the name. |
| Releases.SidecarDate | src/service/presignedUrlService.ts:508-512 | The leftmost `Release Date:` match, which is always a well-formed `YYYY-MM-DD` date; none exactly when no position matches. |
| Releases.SidecarDateOfLeadingLine | src/service/presignedUrlService.ts:508-512 | A sidecar opening with `Release Date: <date>` yields that date. |
| Releases.SidecarTitle | src/service/presignedUrlService.ts:514-516 | The leftmost `Title:` match, a non-empty text without a newline; none exactly when no position matches. |
| Releases.SidecarTitleOfLeadingLine | src/service/presignedUrlService.ts:514-516 | A sidecar opening with `Title: <t>` on its own line yields `t`. |
| Releases.SidecarOfTwoLines | src/service/presignedUrlService.ts:507-516 | For the documented layout `Release Date: <date>` then `Title: <title>` on the next line, the date is read from the first line and the title from the second. |
| Releases.SidecarToRead | src/service/presignedUrlService.ts:494-495 | The key read is the first key ending in `.txt`, with no such key before it. A key is read exactly when one exists and the date is empty or the title is the default. |
| Releases.ApplySidecar | src/service/presignedUrlService.ts:506-517 | The sidecar date fills only an empty date, and the trimmed title replaces only the default title. A sidecar without a date line keeps the date, one without a title line keeps the title, and empty or unreadable content changes nothing. |
| Releases.UpcomingRelease | src/service/presignedUrlService.ts:428-537 | A release exists exactly when an image key exists, with the first image as cover and the first audio key. The title and date come from the name and, when the sidecar is read, from that sidecar's content applied to the name's values. The date falls back to 30 days ahead, so it is never empty. |
| Releases.UpcomingSkipsSidecar | src/service/presignedUrlService.ts:495 | When the name gives a date and a non-default title, the sidecar is never read: any two readers give the same release. |
| Releases.UpcomingDefaultsToIn30 | src/service/presignedUrlService.ts:523-528 | Without a dated name or a readable sidecar, the upcoming release is dated 30 days ahead. |
| Resolve.UpsertCover | src/service/presignedUrlService.ts:65-107 | After a successful cover fetch, the body is stored under the signed URL. The record's `coverUrl` is patched, or a song-less record with a 7-day expiry is created. Otherwise nothing changes, and handles are never touched. |
| Resolve.ResolveCoverUrl | src/service/presignedUrlService.ts:46-114 | A cached cover handle is returned first. Otherwise the signed URL is returned after the awaited upsert, or nothing when signing throws. |
| Resolve.UpsertKeepsCachedStatus | src/service/presignedUrlService.ts:79-100 | The cover upsert can make no album count as cached: a record it creates has no songs. |
| Resolve.CoverCachedAfterResolve | src/service/presignedUrlService.ts:46-114 | After a successful upsert, a second resolution within 7 days returns a cached handle instead of signing. |
| Resolve.ResolveSongUrl | src/service/presignedUrlService.ts:117-141 | The cached song handle if there is one, else the signed URL; the cache lookup's side effects are kept. |
| Resolve.SignSongs | src/service/presignedUrlService.ts:165-174 | The signed song map fails exactly when some song's signing fails. Its keys are exactly the song keys, each mapped to its signed URL. |
| Resolve.EnsureAlbumCached | src/service/presignedUrlService.ts:144-183 | A cached album signs nothing. Otherwise the cover and the songs are signed in order up to the first failure, and `cacheAlbum` gets one URL per song key. |
| Resolve.EnsureTwiceSignsOnce | src/service/presignedUrlService.ts:144-183 | Pre-caching an album twice within 7 days signs nothing the second time, when the first run stored a song. |
| Resolve.SignRelease | src/service/presignedUrlService.ts:386-405 | Signing succeeds exactly when the cover signs and, for a release with audio, the audio signs. |
| Resolve.PublishRelease | src/service/presignedUrlService.ts:385-416 | A derived release is signed and cached. Any signing failure yields null and leaves the cache alone. |
| Resolve.LatestReleaseStep | src/service/presignedUrlService.ts:303-417 | A failed listing yields null. A release it returns has the id `latest-release`. |
| Resolve.UpcomingReleaseStep | src/service/presignedUrlService.ts:419-573 | The same for the upcoming slot, whose id is `upcoming-release`. |
| Resolve.LatestCoverServedFromCache | src/service/presignedUrlService.ts:407-410 | A latest release found with a fetched cover is served from the cache for 7 days. |
| Player.VisibleAlbums | src/components/MusicPlayer.tsx:62-64 | At most three albums, and for an index in range exactly the three (or fewer at the end) starting there. |
| Player.NextSlide | src/components/MusicPlayer.tsx:592-597 | Three on exactly when that stays below the album count, and back to 0 exactly when it does not. |
| Player.PrevSlide | src/components/MusicPlayer.tsx:599-606 | Either three back, or `max(0, len-3)` when that would go below zero. The result is never negative. |
| Player.PrevUndoesNext | src/components/MusicPlayer.tsx:592-606 | Paging forward then back returns to the start page when forward did not wrap. |
| Player.NextUndoesPrev | src/components/MusicPlayer.tsx:592-606 | Paging back then forward returns to the start page when back did not wrap. |
| Player.CarouselStaysInRange | src/components/MusicPlayer.tsx:592-606 | From a valid index both directions land on a valid index with a non-empty page. |
| Player.PrevFromFirstPageShowsLastAlbums | src/components/MusicPlayer.tsx:599-606 | Paging back from the first page shows the last `min(3, len)` albums. |
| Player.NextTrack | src/components/MusicPlayer.tsx:522-530 | An empty list changes nothing. Otherwise the next index wraps to 0 after the last, and the sentinel -1 goes to 0. |
| Player.PrevTrack | src/components/MusicPlayer.tsx:533-551 | An empty list changes nothing. Past 3 s the track restarts. Otherwise the previous index wraps to the last song from 0. |
| Player.TrackStepsInverse | src/components/MusicPlayer.tsx:522-551 | Next then previous, and previous then next, are the identity on valid indices. |
| Player.PrevFromSentinel | src/components/MusicPlayer.tsx:546 | From the release sentinel -1, previous lands on the second-to-last song. |
| Player.RestoreAlbumIndex | src/components/MusicPlayer.tsx:147-189 | A non-empty saved index is applied exactly when it parses into range. Only without one does a saved album id select its page, aligned to a multiple of 3 and containing that album. Otherwise nothing changes. |
| Player.SecondRestoreBlockRedundant | src/components/MusicPlayer.tsx:179-189 | The second restore block never changes the result of the first. |
| Player.RestoredAlbumVisible | src/components/MusicPlayer.tsx:156-165 | An album restored by id is on the page the restored index shows. |
| Player.SavedSlideRestored | src/components/MusicPlayer.tsx:596 | The index a slide saves is restored exactly on the next load. |
| Player.SavedIndexRestored | src/components/MusicPlayer.tsx:147-150 | Any in-range index saved as a decimal string is restored as itself, whatever album id is saved. |
| Player.RestoreSong | src/components/MusicPlayer.tsx:192-214 | A found saved song sets both index and song. Otherwise the first song is chosen with the index untouched, and there is no song exactly when the list is empty. |
| Player.RestoredIndexMatchesSong | src/components/MusicPlayer.tsx:192-214 | From the initial index 0, the restored index always points at the restored song. |
| Player.FormatTime | src/components/MusicPlayer.tsx:631-635 | Reading the `m:ss` display back (minutes, a colon, exactly two digits below 60) gives the seconds. The minutes are unpadded: a leading `0` is the whole minute field. |
| Legacy.LegacyAlbumName | src/data/music.ts:71 | For the prefix `albums/<name>/` the extracted album name is `name`, and the bare prefix `albums/` yields the empty name. |
| Legacy.LegacyFolders | src/data/music.ts:67-132 | The prefix loop fails exactly when some non-empty prefix's listing fails. It appends, in prefix order, one album per non-empty prefix whose listing holds an image, plus their songs. |
| Legacy.LegacyScan | src/data/music.ts:46-139 | A failed listing of any kind gives the empty library. Otherwise album `i` is the album of the `i`-th non-empty prefix with an image, in listing order, and the song list is their songs. |
| Legacy.LegacyAgreesWithScan | src/data/music.ts:99-128 | For a folder prefix listed as the folder's keys, the legacy album equals the bucket scan's album. |
| Text.NormalizeId | src/service/presignedUrlService.ts:259 | The id has no whitespace or upper case and is fixed by both steps, so normalising twice is normalising once. It is never longer than the name, adds no `/`, and for a name without whitespace it is the lower-cased name. |
| Text.NormalizeIdRule | src/service/presignedUrlService.ts:259 | The id rule word by word: a whitespace-free word is lower-cased, the whitespace run after it becomes one `-` and the rest is normalised the same way; the empty name gives the empty id. |
| Text.CollapseRun | src/service/presignedUrlService.ts:259 | A whole whitespace run, up to a non-space character or the end, collapses to a single `-`. |
| Text.CollapseKeepsWord | src/service/presignedUrlService.ts:259 | A whitespace-free word in front passes through the collapse unchanged. |
| Text.LastPiece | src/service/presignedUrlService.ts:208 | `split(d).pop()`: a suffix of the input that is either the whole input or preceded by the separator. |
| Text.Trim | src/service/presignedUrlService.ts:516 | A contiguous slice of the input with only whitespace cut from either end. |
| Releases.FileName | src/service/presignedUrlService.ts:340-342 | The key's last path piece, with an image extension removed when the piece has one and kept whole otherwise. |
| Text.JoinSplit | src/service/presignedUrlService.ts:208 | Splitting on a separator and re-joining gives the input back. |
| Text.ParseIntNatToString | src/components/MusicPlayer.tsx:148 | `parseInt` of a decimal rendering gives the number back. |
| Text.ParseIntReads | src/components/MusicPlayer.tsx:148 | `parseInt` skips whitespace, reads an optional sign and the digits up to the first non-digit, whatever follows. |
| Text.ParseIntNaN | src/components/MusicPlayer.tsx:148-150 | With no digit after the whitespace and the optional sign, `parseInt` gives NaN. |

## Left out

- I/O of every kind becomes parameters: the Cache API, `fetch`, the bucket
  listing, signing, reading the sidecar body and the clock. `caches.open`,
  `cache.put` and JSON failures are not modelled.
- The legacy `getPresignedUrl` in src/data/music.ts is the signer parameter.
- Each step reads the clock once. The source calls `Date.now()` twice when it
  writes a record, so `timestamp` and `expiresAt` can differ by a few
  milliseconds there.
- Interleavings within a call are not modelled. The race between two
  `cacheAlbum` calls is modelled by splitting the call at its first `await`
  (`AcquireLock` and `CacheAlbumLocked`).
- `cacheRelease` is fire-and-forget inside the release lookups. Its effect is
  applied within the same step.
- Resolve.ResolveCoverUrl: the side-fetch is awaited before the URL is returned,
  as the code does, rather than run in the background.
- The signer is a function, so signing the same key twice gives the same URL.
  An album whose songs share a key therefore keeps one URL for that key, as the
  source's `songUrls` object does.
- Objects without a `Key` are not modelled, because every listed key is a string.
- `\s` and case mapping cover ASCII only.
- Player.FormatTime: only whole non-negative seconds are modelled. Fractional
  input is floored first, as `Math.floor` does, and `NaN` is not modelled.
- Player.PrevTrack: the restart assumes the audio element exists. When it does
  not, the source does nothing.
- Volume, playback position, progress, `parseFloat` and audio element events
  are left out because they are floating point and the media element.
- The `catch` branch of `loadData` is not modelled, because the scan it calls
  never throws.
- Rendering, the release players, the static pages and the `init` logging are
  not part of this model.
- Legacy.LegacyScan: the per-prefix listing is a parameter, and the model does
  not rebuild it from a bucket.

=== FILE: cache.dfy ===
/** The offline asset cache (`AudioCache` in src/service/cacheService.ts) as an
    immutable state and pure transitions.

    - `files` is the binary region ('audio-files'): signed URL -> fetched body.
    - `metadata` is the metadata region ('audio-metadata'): entity id -> record.
    - `handles` holds the four object-URL memo maps of the source, one `Slot`
      constructor per map.
    - `inProgress` is the set of album ids whose `cachingInProgress` flag is true.
    - `nextHandle` draws fresh tokens for `URL.createObjectURL`; `revoked` collects
      the tokens passed to `URL.revokeObjectURL`.

    Every public method of the class is one atomic step here; the clock is the
    `now` parameter (milliseconds) and network fetches are the `fetched` map: a URL
    is a key of `fetched` exactly when fetching it yields an ok response, and the
    value is the body. */
module Cache {
  import opened Types

  type Url = string
  type Handle = nat
  type Payload = seq<bv8>

  /** Seven days in milliseconds. */
  const CACHE_EXPIRATION: int := 7 * 24 * 60 * 60 * 1000

  /** A metadata record. Both shapes share one region, keyed by entity id. */
  datatype Record =
    | AlbumRecord(album: Album, audioUrls: map<string, Url>, coverUrl: Url,
                  timestamp: int, expiresAt: int)
    | ReleaseRecord(release: Release, coverUrl: Url, audioUrl: Option<Url>,
                    timestamp: int, expiresAt: int)

  /** A key of one of the four memo maps: album cover (by album id), album song
      (by the composite `albumId:songKey`), release cover and release audio
      (by release id). */
  datatype Slot =
    | AlbumCover(albumId: string)
    | AlbumSong(cacheKey: string)
    | ReleaseCover(releaseId: string)
    | ReleaseAudio(releaseId: string)

  datatype State = State(supported: bool,
                         files: map<Url, Payload>,
                         metadata: map<string, Record>,
                         handles: map<Slot, Handle>,
                         inProgress: set<string>,
                         nextHandle: Handle,
                         revoked: set<Handle>)

  /** The state after a step together with the step's return value. */
  datatype Out<T> = Out(st: State, val: T)

  /** A freshly constructed cache; `supported` says whether the Cache API exists. */
  function Init(supported: bool): (s: State)
    ensures Registry(s) && s.files == map[] && s.metadata == map[] && s.inProgress == {}
  {
    State(supported, map[], map[], map[], {}, 0, {})
  }

  /** The memo key of a song handle, `albumId:songKey`: the album id and the song
      key can both be read back around the colon that follows the id. */
  function SongCacheKey(albumId: string, songKey: string): (r: string)
    ensures |r| == |albumId| + 1 + |songKey|
    ensures r[..|albumId|] == albumId && r[|albumId|] == ':' && r[|albumId| + 1..] == songKey
  {
    albumId + ":" + songKey
  }

  /** The handle registry invariant: every memoised handle was issued, is not
      revoked, and no two memo entries share a handle; only issued handles are
      revoked. */
  predicate Registry(s: State)
  {
    && (forall h :: h in s.revoked ==> h < s.nextHandle)
    && (forall sl :: sl in s.handles ==> s.handles[sl] < s.nextHandle && s.handles[sl] !in s.revoked)
    && (forall a, b :: a in s.handles && b in s.handles && a != b ==> s.handles[a] != s.handles[b])
  }

  /** The record has not expired: expiry is strict, `now > expiresAt`. */
  predicate Live(r: Record, now: int)
  {
    now <= r.expiresAt
  }

  // ------------------------------------------------------------ handle helpers

  /** Revokes and forgets the memo entries of `slots`. */
  function RevokeSlots(s: State, slots: set<Slot>): (r: State)
    ensures r.handles == s.handles - slots
    ensures forall sl :: sl in slots && sl in s.handles ==> s.handles[sl] in r.revoked
    ensures s.revoked <= r.revoked
    ensures r == s.(handles := r.handles, revoked := r.revoked)
    ensures Registry(s) ==> Registry(r)
  {
    var gone := set sl | sl in slots && sl in s.handles :: s.handles[sl];
    var r := s.(handles := s.handles - slots, revoked := s.revoked + gone);
    assert Registry(s) ==> Registry(r) by {
      if Registry(s) {
        forall sl | sl in r.handles
          ensures r.handles[sl] !in r.revoked
        {
          assert forall o :: o in slots && o in s.handles ==> s.handles[o] != s.handles[sl];
        }
      }
    }
    r
  }

  /** `URL.createObjectURL` memoised in `slot`: a token never issued before. */
  function NewHandle(s: State, slot: Slot): (r: Out<Handle>)
    requires slot !in s.handles
    ensures Registry(s) ==> r.val !in s.revoked && forall sl :: sl in s.handles ==> s.handles[sl] != r.val
    ensures r.st.handles == s.handles[slot := r.val]
    ensures r.st == s.(handles := r.st.handles, nextHandle := r.st.nextHandle)
    ensures Registry(s) ==> Registry(r.st)
  {
    Out(s.(handles := s.handles[slot := s.nextHandle], nextHandle := s.nextHandle + 1), s.nextHandle)
  }

  /** The memo slots of the recorded songs of an album. */
  function SongSlots(albumId: string, keys: set<string>): set<Slot>
  {
    set k | k in keys :: AlbumSong(SongCacheKey(albumId, k))
  }

  // ------------------------------------------------------------ clearing

  /** `clearAlbum`: drops the record, the cover binary, every recorded song binary,
      and revokes the cover handle and the handles of the recorded songs. On a
      release-shaped record the song step throws (`Object.keys(undefined)`) after
      the cover is gone, so that record survives. */
  function ClearAlbum(s: State, albumId: string): (r: State)
    ensures !s.supported || albumId !in s.metadata ==> r == s
    ensures s.supported && albumId in s.metadata && s.metadata[albumId].AlbumRecord? ==>
      var rec := s.metadata[albumId];
      var slots := {AlbumCover(albumId)} + SongSlots(albumId, rec.audioUrls.Keys);
      && r.metadata == s.metadata - {albumId}
      && r.files == s.files - {rec.coverUrl} - rec.audioUrls.Values
      && r.handles == s.handles - slots
      && (forall sl :: sl in slots && sl in s.handles ==> s.handles[sl] in r.revoked)
    ensures s.supported && albumId in s.metadata && s.metadata[albumId].ReleaseRecord? ==>
      && r.metadata == s.metadata
      && r.files == s.files - {s.metadata[albumId].coverUrl}
      && r.handles == s.handles - {AlbumCover(albumId)}
    ensures r.supported == s.supported && r.inProgress == s.inProgress && r.nextHandle == s.nextHandle
    ensures s.revoked <= r.revoked
    ensures Registry(s) ==> Registry(r)
  {
    if !s.supported || albumId !in s.metadata then s
    else
      var rec := s.metadata[albumId];
      var s1 := RevokeSlots(s.(files := s.files - {rec.coverUrl}), {AlbumCover(albumId)});
      match rec
      case ReleaseRecord(_, _, _, _, _) => s1
      case AlbumRecord(_, audioUrls, _, _, _) =>
        var s2 := RevokeSlots(s1.(files := s1.files - audioUrls.Values), SongSlots(albumId, audioUrls.Keys));
        s2.(metadata := s2.metadata - {albumId})
  }

  /** The audio URL a release record owns, if any (an empty string counts as none). */
  function ReleaseAudioOf(rec: Record): Option<Url>
  {
    match rec
    case ReleaseRecord(_, _, Some(u), _, _) => if u != "" then Some(u) else None
    case _ => None
  }

  /** `clearRelease`: drops the record and its cover binary, revokes the cover
      handle, and, only when the record names an audio URL, drops that binary
      and revokes the audio handle. */
  function ClearRelease(s: State, releaseId: string): (r: State)
    ensures !s.supported || releaseId !in s.metadata ==> r == s
    ensures s.supported && releaseId in s.metadata ==>
      var rec := s.metadata[releaseId];
      var audio := ReleaseAudioOf(rec);
      var slots := {ReleaseCover(releaseId)} + (if audio.Some? then {ReleaseAudio(releaseId)} else {});
      && r.metadata == s.metadata - {releaseId}
      && r.files == s.files - {rec.coverUrl} - (if audio.Some? then {audio.value} else {})
      && r.handles == s.handles - slots
      && (forall sl :: sl in slots && sl in s.handles ==> s.handles[sl] in r.revoked)
    ensures r.supported == s.supported && r.inProgress == s.inProgress && r.nextHandle == s.nextHandle
    ensures s.revoked <= r.revoked
    ensures Registry(s) ==> Registry(r)
  {
    if !s.supported || releaseId !in s.metadata then s
    else
      var rec := s.metadata[releaseId];
      var s1 := RevokeSlots(s.(files := s.files - {rec.coverUrl}), {ReleaseCover(releaseId)});
      var s2 := match ReleaseAudioOf(rec)
        case None => s1
        case Some(u) => RevokeSlots(s1.(files := s1.files - {u}), {ReleaseAudio(releaseId)});
      s2.(metadata := s2.metadata - {releaseId})
  }

  /** `clearAll`: revokes every memoised handle of all four kinds, empties the four
      memo maps and both regions. In-progress flags are not touched. */
  function ClearAll(s: State): (r: State)
    ensures !s.supported ==> r == s
    ensures s.supported ==> r.files == map[] && r.metadata == map[] && r.handles == map[]
    ensures s.supported ==> s.handles.Values <= r.revoked
    ensures r.supported == s.supported && r.inProgress == s.inProgress && r.nextHandle == s.nextHandle
    ensures Registry(s) ==> Registry(r)
  {
    if !s.supported then s
    else s.(files := map[], metadata := map[], handles := map[], revoked := s.revoked + s.handles.Values)
  }

  // ------------------------------------------------------------ liveness check

  /** `isAlbumCached`: true exactly when an album record exists, has not expired
      and records at least one song. An expired record is cleared on the way. */
  function IsAlbumCached(s: State, albumId: string, now: int): (r: Out<bool>)
    ensures r.val <==> (s.supported && albumId in s.metadata && s.metadata[albumId].AlbumRecord?
                        && Live(s.metadata[albumId], now) && |s.metadata[albumId].audioUrls| > 0)
    ensures s.supported && albumId in s.metadata && !Live(s.metadata[albumId], now)
            ==> r.st == ClearAlbum(s, albumId)
    ensures !(s.supported && albumId in s.metadata && !Live(s.metadata[albumId], now)) ==> r.st == s
    ensures r.st.inProgress == s.inProgress
    ensures Registry(s) ==> Registry(r.st)
  {
    if !s.supported || albumId !in s.metadata then Out(s, false)
    else
      var rec := s.metadata[albumId];
      if now > rec.expiresAt then Out(ClearAlbum(s, albumId), false)
      else match rec
        case ReleaseRecord(_, _, _, _, _) => Out(s, false)
        case AlbumRecord(_, audioUrls, _, _, _) => Out(s, |audioUrls| > 0)
  }

  // ------------------------------------------------------------ caching an album

  /** Song `key` has a non-empty supplied URL whose fetch succeeds. */
  predicate SongStored(songUrls: map<string, Url>, fetched: map<Url, Payload>, key: string)
  {
    key in songUrls && songUrls[key] != "" && songUrls[key] in fetched
  }

  /** The song keys whose binaries a caching run stores. */
  function StoredKeys(songs: seq<Song>, songUrls: map<string, Url>, fetched: map<Url, Payload>): set<string>
  {
    set s | s in songs && SongStored(songUrls, fetched, s.key) :: s.key
  }

  /** The song map a caching run records: every stored key with its supplied URL. */
  function StoredSongUrls(songs: seq<Song>, songUrls: map<string, Url>, fetched: map<Url, Payload>): map<string, Url>
  {
    map k | k in StoredKeys(songs, songUrls, fetched) :: songUrls[k]
  }

  /** The song binaries a caching run stores, keyed by their URLs. */
  function StoredSongFiles(songs: seq<Song>, songUrls: map<string, Url>, fetched: map<Url, Payload>): map<Url, Payload>
  {
    var urls := StoredSongUrls(songs, songUrls, fetched).Values;
    assert forall u :: u in urls ==> u in fetched;
    map u | u in urls :: fetched[u]
  }

  datatype SongBatch = SongBatch(files: map<Url, Payload>, audioUrls: map<string, Url>)

  lemma StoredKeysCons(songs: seq<Song>, songUrls: map<string, Url>, fetched: map<Url, Payload>)
    requires songs != []
    ensures StoredKeys(songs, songUrls, fetched)
         == StoredKeys(songs[1..], songUrls, fetched)
            + (if SongStored(songUrls, fetched, songs[0].key) then {songs[0].key} else {})
  {
    assert forall s :: s in songs <==> s == songs[0] || s in songs[1..];
  }

  /** How the recorded song map and stored binaries grow by one song. */
  lemma StoredCons(songs: seq<Song>, songUrls: map<string, Url>, fetched: map<Url, Payload>)
    requires songs != []
    ensures var key := songs[0].key;
      if SongStored(songUrls, fetched, key) then
        && StoredSongUrls(songs, songUrls, fetched)
           == StoredSongUrls(songs[1..], songUrls, fetched)[key := songUrls[key]]
        && StoredSongFiles(songs, songUrls, fetched)
           == StoredSongFiles(songs[1..], songUrls, fetched)[songUrls[key] := fetched[songUrls[key]]]
      else
        && StoredSongUrls(songs, songUrls, fetched) == StoredSongUrls(songs[1..], songUrls, fetched)
        && StoredSongFiles(songs, songUrls, fetched) == StoredSongFiles(songs[1..], songUrls, fetched)
  {
    StoredKeysCons(songs, songUrls, fetched);
    var key := songs[0].key;
    if SongStored(songUrls, fetched, key) {
      var url := songUrls[key];
      var m0 := StoredSongUrls(songs[1..], songUrls, fetched);
      var m := m0[key := url];
      assert StoredSongUrls(songs, songUrls, fetched) == m;
      forall u
        ensures u in m.Values <==> u in m0.Values || u == url
      {
        if u == url {
          assert m[key] == url;
        }
        if u in m0.Values && u != url {
          var k :| k in m0 && m0[k] == u;
          assert m[k] == u;
        }
        if u in m.Values {
          var k :| k in m && m[k] == u;
          if k != key {
            assert m0[k] == u;
          }
        }
      }
      assert m.Values == m0.Values + {url};
    }
  }

  /** Adding one entry before or after a union agrees when the union's right side
      holds the same value for that key. */
  lemma UpdateUnion<K, V>(a: map<K, V>, m: map<K, V>, k: K, v: V)
    requires k in m ==> m[k] == v
    ensures a[k := v] + m == a + m[k := v]
  {
  }

  /** The song loop of `cacheAlbum`, in listing order: a song whose URL is missing
      or empty is skipped, a failed fetch is skipped, a successful one stores the
      body under its URL and records the URL under the song key. */
  function CacheSongs(songs: seq<Song>, songUrls: map<string, Url>, fetched: map<Url, Payload>,
                      acc: SongBatch): (r: SongBatch)
    ensures r.audioUrls == acc.audioUrls + StoredSongUrls(songs, songUrls, fetched)
    ensures r.files == acc.files + StoredSongFiles(songs, songUrls, fetched)
    decreases |songs|
  {
    if songs == [] then
      assert StoredSongUrls(songs, songUrls, fetched) == map[];
      acc
    else
      var key := songs[0].key;
      StoredCons(songs, songUrls, fetched);
      if SongStored(songUrls, fetched, key) then
        var url := songUrls[key];
        var r := CacheSongs(songs[1..], songUrls, fetched,
                            SongBatch(acc.files[url := fetched[url]], acc.audioUrls[key := url]));
        UpdateUnion(acc.audioUrls, StoredSongUrls(songs[1..], songUrls, fetched), key, url);
        UpdateUnion(acc.files, StoredSongFiles(songs[1..], songUrls, fetched), url, fetched[url]);
        r
      else
        CacheSongs(songs[1..], songUrls, fetched, acc)
  }

  /** The song URLs `cacheAlbum` requests, in order: one per song with a non-empty
      supplied URL. */
  function SongRequests(songs: seq<Song>, songUrls: map<string, Url>): (r: seq<Url>)
    ensures |r| <= |songs|
    ensures forall u :: u in r ==> u != "" && exists s :: s in songs && s.key in songUrls && songUrls[s.key] == u
  {
    if songs == [] then []
    else
      var key := songs[0].key;
      var head := if key in songUrls && songUrls[key] != "" then [songUrls[key]] else [];
      head + SongRequests(songs[1..], songUrls)
  }

  /** The synchronous prologue of `cacheAlbum`: give up when the Cache API is
      missing or the album is already being cached, else set the flag. */
  function AcquireLock(s: State, albumId: string): (r: Out<bool>)
    ensures r.val <==> s.supported && albumId !in s.inProgress
    ensures r.val ==> r.st == s.(inProgress := s.inProgress + {albumId})
    ensures !r.val ==> r.st == s
  {
    if !s.supported || albumId in s.inProgress then Out(s, false)
    else Out(s.(inProgress := s.inProgress + {albumId}), true)
  }

  /** The binary region after the cover fetch: the body is stored under the cover
      URL when the fetch succeeds, and nothing changes otherwise. */
  function CoverFile(files: map<Url, Payload>, coverUrl: Url, fetched: map<Url, Payload>): map<Url, Payload>
  {
    if coverUrl in fetched then files[coverUrl := fetched[coverUrl]] else files
  }

  /** The fetch-and-persist part of `cacheAlbum`: store the cover when its fetch
      succeeds, run the song loop, and write the album record (7-day expiry). */
  function PersistAlbum(s: State, album: Album, coverUrl: Url, songUrls: map<string, Url>,
                        fetched: map<Url, Payload>, now: int): (r: State)
    ensures r.metadata
         == s.metadata[album.id := AlbumRecord(album, StoredSongUrls(album.songs, songUrls, fetched),
                                               coverUrl, now, now + CACHE_EXPIRATION)]
    ensures r.files == CoverFile(s.files, coverUrl, fetched) + StoredSongFiles(album.songs, songUrls, fetched)
    ensures forall u :: u in r.files && u !in s.files ==> u in fetched && r.files[u] == fetched[u]
    ensures s.files.Keys <= r.files.Keys
    ensures coverUrl in fetched ==> coverUrl in r.files
    ensures forall k :: k in StoredKeys(album.songs, songUrls, fetched) ==> songUrls[k] in r.files
    ensures r == s.(files := r.files, metadata := r.metadata)
  {
    var files := CoverFile(s.files, coverUrl, fetched);
    var batch := CacheSongs(album.songs, songUrls, fetched, SongBatch(files, map[]));
    assert batch.audioUrls == StoredSongUrls(album.songs, songUrls, fetched);
    var stored := StoredSongUrls(album.songs, songUrls, fetched);
    forall k | k in StoredKeys(album.songs, songUrls, fetched)
      ensures songUrls[k] in stored.Values
    {
      assert stored[k] == songUrls[k];
    }
    var rec := AlbumRecord(album, batch.audioUrls, coverUrl, now, now + CACHE_EXPIRATION);
    s.(files := batch.files, metadata := s.metadata[album.id := rec])
  }

  /** The rest of `cacheAlbum`, run while holding the flag: re-check the cache, then
      fetch the cover and each song independently, persist a record of whatever
      succeeded, and release the flag. Returns the URLs it fetched. */
  function CacheAlbumLocked(s: State, album: Album, coverUrl: Url, songUrls: map<string, Url>,
                            fetched: map<Url, Payload>, now: int): (r: Out<seq<Url>>)
    requires s.supported && album.id in s.inProgress
    ensures r.st.inProgress == s.inProgress - {album.id}
    ensures IsAlbumCached(s, album.id, now).val ==>
      r.st == s.(inProgress := s.inProgress - {album.id}) && r.val == []
    ensures !IsAlbumCached(s, album.id, now).val ==>
      var s1 := IsAlbumCached(s, album.id, now).st;
      && r.st.metadata
         == s1.metadata[album.id := AlbumRecord(album, StoredSongUrls(album.songs, songUrls, fetched),
                                                coverUrl, now, now + CACHE_EXPIRATION)]
      && r.st.files == CoverFile(s1.files, coverUrl, fetched) + StoredSongFiles(album.songs, songUrls, fetched)
      && r.val == [coverUrl] + SongRequests(album.songs, songUrls)
      && s1.files.Keys <= r.st.files.Keys
      && (forall u :: u in r.st.files && u !in s.files ==> u in fetched && r.st.files[u] == fetched[u])
      && (coverUrl in fetched ==> coverUrl in r.st.files)
      && (forall k :: k in StoredKeys(album.songs, songUrls, fetched) ==> songUrls[k] in r.st.files)
      && r.st == s1.(files := r.st.files, metadata := r.st.metadata, inProgress := s.inProgress - {album.id})
    ensures Registry(s) ==> Registry(r.st)
  {
    var check := IsAlbumCached(s, album.id, now);
    var s1 := check.st;
    if check.val then
      Out(s1.(inProgress := s1.inProgress - {album.id}), [])
    else
      assert s1.files.Keys <= s.files.Keys;
      var s2 := PersistAlbum(s1, album, coverUrl, songUrls, fetched, now);
      Out(s2.(inProgress := s2.inProgress - {album.id}), [coverUrl] + SongRequests(album.songs, songUrls))
  }

  /** `cacheAlbum(album, coverUrl, songUrls)` as one atomic step. */
  function CacheAlbum(s: State, album: Album, coverUrl: Url, songUrls: map<string, Url>,
                      fetched: map<Url, Payload>, now: int): (r: Out<seq<Url>>)
    ensures !s.supported || album.id in s.inProgress ==> r == Out(s, [])
    ensures album.id !in s.inProgress ==> r.st.inProgress == s.inProgress
    ensures s.supported && album.id !in s.inProgress && IsAlbumCached(s, album.id, now).val ==>
      r.st == s && r.val == []
    ensures s.supported && album.id !in s.inProgress && !IsAlbumCached(s, album.id, now).val ==>
      var s1 := IsAlbumCached(s, album.id, now).st;
      && album.id in r.st.metadata
      && r.st.metadata
         == s1.metadata[album.id := AlbumRecord(album, StoredSongUrls(album.songs, songUrls, fetched),
                                                coverUrl, now, now + CACHE_EXPIRATION)]
      && r.st.files == CoverFile(s1.files, coverUrl, fetched) + StoredSongFiles(album.songs, songUrls, fetched)
      && r.val == [coverUrl] + SongRequests(album.songs, songUrls)
      && s1.files.Keys <= r.st.files.Keys
      && (forall u :: u in r.st.files && u !in s.files ==> u in fetched && r.st.files[u] == fetched[u])
      && (coverUrl in fetched ==> coverUrl in r.st.files)
      && (forall k :: k in StoredKeys(album.songs, songUrls, fetched) ==> songUrls[k] in r.st.files)
      && r.st == s1.(files := r.st.files, metadata := r.st.metadata)
    ensures Registry(s) ==> Registry(r.st)
  {
    var lock := AcquireLock(s, album.id);
    if !lock.val then Out(s, [])
    else
      CachedStatusIgnoresLock(s, album.id, now, lock.st.inProgress);
      assert Registry(s) ==> Registry(lock.st);
      var r := CacheAlbumLocked(lock.st, album, coverUrl, songUrls, fetched, now);
      assert r.st.inProgress == s.inProgress;
      r
  }

  /** Whether an album counts as cached does not depend on the in-progress flags. */
  lemma CachedStatusIgnoresLock(s: State, albumId: string, now: int, flags: set<string>)
    ensures IsAlbumCached(s.(inProgress := flags), albumId, now).val == IsAlbumCached(s, albumId, now).val
    ensures IsAlbumCached(s.(inProgress := flags), albumId, now).st == IsAlbumCached(s, albumId, now).st.(inProgress := flags)
  {
  }

  // ------------------------------------------------------------ album lookups

  /** `getCoverUrl`: the memoised handle if there is one (metadata is not read);
      otherwise a fresh handle for a live record whose cover binary is present. */
  function GetCoverUrl(s: State, albumId: string, now: int): (r: Out<Option<Handle>>)
    ensures !s.supported ==> r == Out(s, None)
    ensures s.supported && AlbumCover(albumId) in s.handles ==> r == Out(s, Some(s.handles[AlbumCover(albumId)]))
    ensures r.val.Some? ==> AlbumCover(albumId) in r.st.handles && r.st.handles[AlbumCover(albumId)] == r.val.value
    ensures r.val.Some? && AlbumCover(albumId) !in s.handles ==>
      albumId in s.metadata && Live(s.metadata[albumId], now) && s.metadata[albumId].coverUrl in s.files
    ensures (s.supported && albumId in s.metadata && Live(s.metadata[albumId], now)
             && s.metadata[albumId].coverUrl in s.files) ==> r.val.Some?
    ensures (s.supported && AlbumCover(albumId) !in s.handles && albumId in s.metadata
             && !Live(s.metadata[albumId], now)) ==> r == Out(ClearAlbum(s, albumId), None)
    ensures r.val.None? && !(s.supported && albumId in s.metadata && !Live(s.metadata[albumId], now)) ==> r.st == s
    ensures r.val.Some? ==> r.st == s.(handles := r.st.handles, nextHandle := r.st.nextHandle)
    ensures r.val.Some? && AlbumCover(albumId) !in s.handles ==>
      r.st.handles == s.handles[AlbumCover(albumId) := r.val.value]
    ensures forall o :: o in s.handles && o in r.st.handles ==> r.st.handles[o] == s.handles[o]
    ensures !(s.supported && albumId in s.metadata && !Live(s.metadata[albumId], now)) ==> s.handles.Keys <= r.st.handles.Keys
    ensures r.st.supported == s.supported && r.st.inProgress == s.inProgress
    ensures Registry(s) ==> Registry(r.st) && (r.val.Some? ==> r.val.value !in r.st.revoked)
  {
    var slot := AlbumCover(albumId);
    if !s.supported then Out(s, None)
    else if slot in s.handles then Out(s, Some(s.handles[slot]))
    else if albumId !in s.metadata then Out(s, None)
    else
      var rec := s.metadata[albumId];
      if now > rec.expiresAt then Out(ClearAlbum(s, albumId), None)
      else if rec.coverUrl !in s.files then Out(s, None)
      else
        var h := NewHandle(s, slot);
        Out(h.st, Some(h.val))
  }

  /** The URL an album record holds for a song, treating an empty string as absent;
      a release-shaped record has no song map (the lookup throws and yields null). */
  function RecordedSongUrl(rec: Record, songKey: string): Option<Url>
  {
    match rec
    case AlbumRecord(_, audioUrls, _, _, _) =>
      if songKey in audioUrls && audioUrls[songKey] != "" then Some(audioUrls[songKey]) else None
    case ReleaseRecord(_, _, _, _, _) => None
  }

  /** `getSongUrl`: the memoised handle under `albumId:songKey` if there is one;
      otherwise a fresh handle for a song recorded in a live album record whose
      binary is present. */
  function GetSongUrl(s: State, albumId: string, songKey: string, now: int): (r: Out<Option<Handle>>)
    ensures !s.supported ==> r == Out(s, None)
    ensures s.supported && AlbumSong(SongCacheKey(albumId, songKey)) in s.handles ==>
      r == Out(s, Some(s.handles[AlbumSong(SongCacheKey(albumId, songKey))]))
    ensures r.val.Some? ==>
      var slot := AlbumSong(SongCacheKey(albumId, songKey));
      slot in r.st.handles && r.st.handles[slot] == r.val.value
    ensures r.val.Some? && AlbumSong(SongCacheKey(albumId, songKey)) !in s.handles ==>
      && albumId in s.metadata && Live(s.metadata[albumId], now)
      && s.metadata[albumId].AlbumRecord? && songKey in s.metadata[albumId].audioUrls
      && s.metadata[albumId].audioUrls[songKey] in s.files
    ensures (s.supported && albumId in s.metadata && Live(s.metadata[albumId], now)
             && RecordedSongUrl(s.metadata[albumId], songKey).Some?
             && RecordedSongUrl(s.metadata[albumId], songKey).value in s.files) ==> r.val.Some?
    ensures (s.supported && AlbumSong(SongCacheKey(albumId, songKey)) !in s.handles && albumId in s.metadata
             && !Live(s.metadata[albumId], now)) ==> r == Out(ClearAlbum(s, albumId), None)
    ensures r.val.None? && !(s.supported && albumId in s.metadata && !Live(s.metadata[albumId], now)) ==> r.st == s
    ensures r.val.Some? ==> r.st == s.(handles := r.st.handles, nextHandle := r.st.nextHandle)
    ensures r.val.Some? && AlbumSong(SongCacheKey(albumId, songKey)) !in s.handles ==>
      r.st.handles == s.handles[AlbumSong(SongCacheKey(albumId, songKey)) := r.val.value]
    ensures forall o :: o in s.handles && o in r.st.handles ==> r.st.handles[o] == s.handles[o]
    ensures !(s.supported && albumId in s.metadata && !Live(s.metadata[albumId], now)) ==> s.handles.Keys <= r.st.handles.Keys
    ensures r.st.supported == s.supported && r.st.inProgress == s.inProgress
    ensures Registry(s) ==> Registry(r.st) && (r.val.Some? ==> r.val.value !in r.st.revoked)
  {
    var slot := AlbumSong(SongCacheKey(albumId, songKey));
    if !s.supported then Out(s, None)
    else if slot in s.handles then Out(s, Some(s.handles[slot]))
    else if albumId !in s.metadata then Out(s, None)
    else
      var rec := s.metadata[albumId];
      if now > rec.expiresAt then Out(ClearAlbum(s, albumId), None)
      else match RecordedSongUrl(rec, songKey)
        case None => Out(s, None)
        case Some(url) =>
          if url !in s.files then Out(s, None)
          else
            var h := NewHandle(s, slot);
            Out(h.st, Some(h.val))
  }

  // ------------------------------------------------------------ releases

  /** `cacheRelease`: fetch the cover; fetch the audio only when the audio URL and
      the release key are both non-empty; then always write the release record.
      There is no lock and no re-check. Returns the URLs it fetched. */
  function CacheRelease(s: State, release: Release, coverUrl: Url, audioUrl: Option<Url>,
                        fetched: map<Url, Payload>, now: int): (r: Out<seq<Url>>)
    ensures !s.supported ==> r == Out(s, [])
    ensures s.supported ==>
      && r.st.metadata == s.metadata[release.id := ReleaseRecord(release, coverUrl, audioUrl, now, now + CACHE_EXPIRATION)]
      && r.val == [coverUrl] + (if audioUrl.Some? && audioUrl.value != "" && release.key != "" then [audioUrl.value] else [])
      && (forall u :: u in r.st.files && u !in s.files ==> u in r.val && u in fetched && r.st.files[u] == fetched[u])
      && (forall u :: u in r.val && u in fetched ==> u in r.st.files && r.st.files[u] == fetched[u])
      && s.files.Keys <= r.st.files.Keys
      && (forall u :: u in s.files && !(u in r.val && u in fetched) ==> r.st.files[u] == s.files[u])
      && r.st == s.(files := r.st.files, metadata := r.st.metadata)
    ensures r.st.handles == s.handles && r.st.inProgress == s.inProgress && r.st.revoked == s.revoked
    ensures Registry(s) ==> Registry(r.st)
  {
    if !s.supported then Out(s, [])
    else
      var f1 := if coverUrl in fetched then s.files[coverUrl := fetched[coverUrl]] else s.files;
      var wantAudio := audioUrl.Some? && audioUrl.value != "" && release.key != "";
      var f2 := if wantAudio && audioUrl.value in fetched then f1[audioUrl.value := fetched[audioUrl.value]] else f1;
      var rec := ReleaseRecord(release, coverUrl, audioUrl, now, now + CACHE_EXPIRATION);
      Out(s.(files := f2, metadata := s.metadata[release.id := rec]),
          [coverUrl] + (if wantAudio then [audioUrl.value] else []))
  }

  /** `getReleaseCoverUrl`: memoised handle, else a fresh handle for the cover of a
      live record whose binary is present; an expired record is cleared. */
  function GetReleaseCoverUrl(s: State, releaseId: string, now: int): (r: Out<Option<Handle>>)
    ensures !s.supported ==> r == Out(s, None)
    ensures s.supported && ReleaseCover(releaseId) in s.handles ==>
      r == Out(s, Some(s.handles[ReleaseCover(releaseId)]))
    ensures r.val.Some? ==> ReleaseCover(releaseId) in r.st.handles && r.st.handles[ReleaseCover(releaseId)] == r.val.value
    ensures r.val.Some? && ReleaseCover(releaseId) !in s.handles ==>
      releaseId in s.metadata && Live(s.metadata[releaseId], now) && s.metadata[releaseId].coverUrl in s.files
    ensures (s.supported && releaseId in s.metadata && Live(s.metadata[releaseId], now)
             && s.metadata[releaseId].coverUrl in s.files) ==> r.val.Some?
    ensures (s.supported && ReleaseCover(releaseId) !in s.handles && releaseId in s.metadata
             && !Live(s.metadata[releaseId], now)) ==> r == Out(ClearRelease(s, releaseId), None)
    ensures r.val.None? && !(s.supported && releaseId in s.metadata && !Live(s.metadata[releaseId], now)) ==> r.st == s
    ensures r.val.Some? ==> r.st == s.(handles := r.st.handles, nextHandle := r.st.nextHandle)
    ensures r.val.Some? && ReleaseCover(releaseId) !in s.handles ==>
      r.st.handles == s.handles[ReleaseCover(releaseId) := r.val.value]
    ensures forall o :: o in s.handles && o in r.st.handles ==> r.st.handles[o] == s.handles[o]
    ensures !(s.supported && releaseId in s.metadata && !Live(s.metadata[releaseId], now)) ==> s.handles.Keys <= r.st.handles.Keys
    ensures r.st.supported == s.supported && r.st.inProgress == s.inProgress
    ensures Registry(s) ==> Registry(r.st) && (r.val.Some? ==> r.val.value !in r.st.revoked)
  {
    var slot := ReleaseCover(releaseId);
    if !s.supported then Out(s, None)
    else if slot in s.handles then Out(s, Some(s.handles[slot]))
    else if releaseId !in s.metadata then Out(s, None)
    else
      var rec := s.metadata[releaseId];
      if now > rec.expiresAt then Out(ClearRelease(s, releaseId), None)
      else if rec.coverUrl !in s.files then Out(s, None)
      else
        var h := NewHandle(s, slot);
        Out(h.st, Some(h.val))
  }

  /** `getReleaseAudioUrl`: memoised handle, else null when the live record has no
      audio URL, else a fresh handle when the audio binary is present. */
  function GetReleaseAudioUrl(s: State, releaseId: string, now: int): (r: Out<Option<Handle>>)
    ensures !s.supported ==> r == Out(s, None)
    ensures s.supported && ReleaseAudio(releaseId) in s.handles ==>
      r == Out(s, Some(s.handles[ReleaseAudio(releaseId)]))
    ensures (s.supported && ReleaseAudio(releaseId) !in s.handles && releaseId in s.metadata
             && Live(s.metadata[releaseId], now) && ReleaseAudioOf(s.metadata[releaseId]).None?) ==> r == Out(s, None)
    ensures r.val.Some? ==> ReleaseAudio(releaseId) in r.st.handles && r.st.handles[ReleaseAudio(releaseId)] == r.val.value
    ensures r.val.Some? && ReleaseAudio(releaseId) !in s.handles ==>
      && releaseId in s.metadata && Live(s.metadata[releaseId], now)
      && ReleaseAudioOf(s.metadata[releaseId]).Some? && ReleaseAudioOf(s.metadata[releaseId]).value in s.files
    ensures (s.supported && releaseId in s.metadata && Live(s.metadata[releaseId], now)
             && ReleaseAudioOf(s.metadata[releaseId]).Some?
             && ReleaseAudioOf(s.metadata[releaseId]).value in s.files) ==> r.val.Some?
    ensures (s.supported && ReleaseAudio(releaseId) !in s.handles && releaseId in s.metadata
             && !Live(s.metadata[releaseId], now)) ==> r == Out(ClearRelease(s, releaseId), None)
    ensures r.val.None? && !(s.supported && releaseId in s.metadata && !Live(s.metadata[releaseId], now)) ==> r.st == s
    ensures r.val.Some? ==> r.st == s.(handles := r.st.handles, nextHandle := r.st.nextHandle)
    ensures r.val.Some? && ReleaseAudio(releaseId) !in s.handles ==>
      r.st.handles == s.handles[ReleaseAudio(releaseId) := r.val.value]
    ensures forall o :: o in s.handles && o in r.st.handles ==> r.st.handles[o] == s.handles[o]
    ensures !(s.supported && releaseId in s.metadata && !Live(s.metadata[releaseId], now)) ==> s.handles.Keys <= r.st.handles.Keys
    ensures r.st.supported == s.supported && r.st.inProgress == s.inProgress
    ensures Registry(s) ==> Registry(r.st) && (r.val.Some? ==> r.val.value !in r.st.revoked)
  {
    var slot := ReleaseAudio(releaseId);
    if !s.supported then Out(s, None)
    else if slot in s.handles then Out(s, Some(s.handles[slot]))
    else if releaseId !in s.metadata then Out(s, None)
    else
      var rec := s.metadata[releaseId];
      if now > rec.expiresAt then Out(ClearRelease(s, releaseId), None)
      else match ReleaseAudioOf(rec)
        case None => Out(s, None)
        case Some(url) =>
          if url !in s.files then Out(s, None)
          else
            var h := NewHandle(s, slot);
            Out(h.st, Some(h.val))
  }
}

=== FILE: cache_props.dfy ===
/** Properties that relate several steps of the asset cache: the lifetime of a
    cached album, partial caching, the in-progress lock, handle identity across
    lookups and clears, and what `clearAll` leaves behind. */
module CacheProperties {
  import opened Types
  import opened Text
  import opened Cache
  import Catalog

  /** A record is written even when song fetches fail; the album then counts as
      cached exactly while at least one song was stored and the clock has not
      passed `now + 7 days`. */
  lemma {:induction false} CachedUntilExpiry(s: State, album: Album, coverUrl: Url, songUrls: map<string, Url>,
                                             fetched: map<Url, Payload>, now: int, later: int)
    requires s.supported && album.id !in s.inProgress && !IsAlbumCached(s, album.id, now).val
    ensures var r := CacheAlbum(s, album, coverUrl, songUrls, fetched, now);
      && album.id in r.st.metadata
      && r.st.metadata[album.id].expiresAt == now + CACHE_EXPIRATION
      && (IsAlbumCached(r.st, album.id, later).val
          <==> later <= now + CACHE_EXPIRATION && StoredKeys(album.songs, songUrls, fetched) != {})
  {
    var r := CacheAlbum(s, album, coverUrl, songUrls, fetched, now);
    var stored := StoredSongUrls(album.songs, songUrls, fetched);
    assert r.st.metadata[album.id].audioUrls == stored;
    if StoredKeys(album.songs, songUrls, fetched) != {} {
      var k :| k in StoredKeys(album.songs, songUrls, fetched);
      assert k in stored;
    }
  }

  /** What `cacheAlbum` stored is what the lookups serve: within the seven days,
      every song whose binary was stored gets a handle from `getSongUrl`, and the
      cover gets one from `getCoverUrl` when its fetch succeeded. Records of other
      ids are kept as they were. */
  lemma {:induction false} CachedAlbumServed(s: State, album: Album, coverUrl: Url, songUrls: map<string, Url>,
                                             fetched: map<Url, Payload>, now: int, later: int)
    requires s.supported && album.id !in s.inProgress && !IsAlbumCached(s, album.id, now).val
    requires later <= now + CACHE_EXPIRATION
    ensures var r := CacheAlbum(s, album, coverUrl, songUrls, fetched, now);
      && (forall k :: k in StoredKeys(album.songs, songUrls, fetched) ==> GetSongUrl(r.st, album.id, k, later).val.Some?)
      && (coverUrl in fetched ==> GetCoverUrl(r.st, album.id, later).val.Some?)
      && (forall id :: id != album.id && id in s.metadata && Live(s.metadata[id], now) ==>
            id in r.st.metadata && r.st.metadata[id] == s.metadata[id])
  {
    var r := CacheAlbum(s, album, coverUrl, songUrls, fetched, now);
    var rec := r.st.metadata[album.id];
    assert rec.audioUrls == StoredSongUrls(album.songs, songUrls, fetched);
    forall k | k in StoredKeys(album.songs, songUrls, fetched)
      ensures GetSongUrl(r.st, album.id, k, later).val.Some?
    {
      assert RecordedSongUrl(rec, k) == Some(songUrls[k]);
    }
  }

  /** Three songs whose second fetch fails: the record holds exactly the first and
      third song, under their supplied URLs, and the album counts as cached. */
  lemma PartialCaching(s: State, album: Album, coverUrl: Url, fetched: map<Url, Payload>, now: int,
                       k1: string, k2: string, k3: string, u1: Url, u2: Url, u3: Url)
    requires s.supported && album.id !in s.inProgress && !IsAlbumCached(s, album.id, now).val
    requires |album.songs| == 3
    requires album.songs[0].key == k1 && album.songs[1].key == k2 && album.songs[2].key == k3
    requires k1 != k2 && k2 != k3 && k1 != k3
    requires u1 != "" && u2 != "" && u3 != ""
    requires u1 in fetched && u2 !in fetched && u3 in fetched
    ensures var r := CacheAlbum(s, album, coverUrl, map[k1 := u1, k2 := u2, k3 := u3], fetched, now);
      && r.st.metadata[album.id].audioUrls == map[k1 := u1, k3 := u3]
      && IsAlbumCached(r.st, album.id, now).val
  {
    var songUrls := map[k1 := u1, k2 := u2, k3 := u3];
    SecondOfThreeFails(album.songs, fetched, k1, k2, k3, u1, u2, u3);
    var m := StoredSongUrls(album.songs, songUrls, fetched);
    var r := CacheAlbum(s, album, coverUrl, songUrls, fetched, now);
    assert r.st.metadata[album.id].audioUrls == m;
    assert k1 in m;
  }

  /** The stored song map of the three-song run above. */
  lemma SecondOfThreeFails(songs: seq<Song>, fetched: map<Url, Payload>,
                           k1: string, k2: string, k3: string, u1: Url, u2: Url, u3: Url)
    requires |songs| == 3
    requires songs[0].key == k1 && songs[1].key == k2 && songs[2].key == k3
    requires k1 != k2 && k2 != k3 && k1 != k3
    requires u1 != "" && u2 != "" && u3 != ""
    requires u1 in fetched && u2 !in fetched && u3 in fetched
    ensures StoredSongUrls(songs, map[k1 := u1, k2 := u2, k3 := u3], fetched) == map[k1 := u1, k3 := u3]
  {
    var songUrls := map[k1 := u1, k2 := u2, k3 := u3];
    StoredKeysCons(songs, songUrls, fetched);
    StoredKeysCons(songs[1..], songUrls, fetched);
    StoredKeysCons(songs[2..], songUrls, fetched);
    assert songs[1..][1..] == songs[2..];
    assert songs[2..][1..] == [];
    assert StoredKeys(songs, songUrls, fetched) == {k1, k3};
  }

  /** Two racing `cacheAlbum` calls for one album: while the first holds the flag
      the second changes nothing and fetches nothing; when the first finishes the
      flag is down and the record is the first call's. */
  lemma RacingCallsRunOnce(s: State, album: Album, cover1: Url, urls1: map<string, Url>,
                           cover2: Url, urls2: map<string, Url>, fetched: map<Url, Payload>,
                           now1: int, now2: int)
    requires s.supported && album.id !in s.inProgress && !IsAlbumCached(s, album.id, now1).val
    ensures var first := AcquireLock(s, album.id);
      && first.val
      && CacheAlbum(first.st, album, cover2, urls2, fetched, now2) == Out(first.st, [])
      && var done := CacheAlbumLocked(first.st, album, cover1, urls1, fetched, now1);
         && album.id !in done.st.inProgress
         && done.st.metadata[album.id].coverUrl == cover1
         && done.st.metadata[album.id].audioUrls == StoredSongUrls(album.songs, urls1, fetched)
  {
    var first := AcquireLock(s, album.id);
    assert IsAlbumCached(first.st, album.id, now1).val == IsAlbumCached(s, album.id, now1).val;
  }

  /** Handle identity: once `getSongUrl` has produced a handle, a later lookup at
      any time returns the very same handle without changing the state. */
  lemma SongHandleStable(s: State, albumId: string, songKey: string, now: int, later: int)
    ensures var first := GetSongUrl(s, albumId, songKey, now);
      first.val.Some? ==> GetSongUrl(first.st, albumId, songKey, later) == first
  {
  }

  /** A song handle, once issued, survives lookups of other covers, songs and
      releases that meet no expired record, and the next lookup of the same song
      returns it unchanged. */
  lemma SongHandleStableAcrossLookups(s: State, albumId: string, songKey: string, now: int,
                                      other: string, otherKey: string, releaseId: string, later: int, last: int)
    requires var first := GetSongUrl(s, albumId, songKey, now);
      && first.val.Some?
      && !(other in first.st.metadata && !Live(first.st.metadata[other], later))
      && !(releaseId in first.st.metadata && !Live(first.st.metadata[releaseId], later))
    ensures var first := GetSongUrl(s, albumId, songKey, now);
      && (var mid := GetCoverUrl(first.st, other, later);
          GetSongUrl(mid.st, albumId, songKey, last) == Out(mid.st, first.val))
      && (var mid := GetSongUrl(first.st, other, otherKey, later);
          GetSongUrl(mid.st, albumId, songKey, last) == Out(mid.st, first.val))
      && (var mid := GetReleaseCoverUrl(first.st, releaseId, later);
          GetSongUrl(mid.st, albumId, songKey, last) == Out(mid.st, first.val))
      && (var mid := GetReleaseAudioUrl(first.st, releaseId, later);
          GetSongUrl(mid.st, albumId, songKey, last) == Out(mid.st, first.val))
  {
  }

  lemma {:induction false} SongSlotOf(albumId: string, keys: set<string>, k: string)
    requires k in keys
    ensures AlbumSong(SongCacheKey(albumId, k)) in SongSlots(albumId, keys)
  {
  }

  /** A `clearAlbum` between two lookups of the same song revokes the handle the
      first lookup created, and the second lookup misses. */
  lemma {:induction false} ClearAlbumRevokesSongHandle(s: State, albumId: string, songKey: string, now: int, later: int)
    requires Registry(s)
    requires AlbumSong(SongCacheKey(albumId, songKey)) !in s.handles
    ensures var first := GetSongUrl(s, albumId, songKey, now);
      first.val.Some? ==>
        var cleared := ClearAlbum(first.st, albumId);
        && first.val.value in cleared.revoked
        && GetSongUrl(cleared, albumId, songKey, later).val == None
  {
    var first := GetSongUrl(s, albumId, songKey, now);
    if first.val.Some? {
      var rec := first.st.metadata[albumId];
      assert rec == s.metadata[albumId];
      SongSlotOf(albumId, rec.audioUrls.Keys, songKey);
    }
  }

  /** The same for the album cover handle. */
  lemma {:induction false} ClearAlbumRevokesCoverHandle(s: State, albumId: string, now: int, later: int)
    requires Registry(s)
    requires AlbumCover(albumId) !in s.handles
    requires albumId in s.metadata && s.metadata[albumId].AlbumRecord?
    ensures var first := GetCoverUrl(s, albumId, now);
      first.val.Some? ==>
        var cleared := ClearAlbum(first.st, albumId);
        && first.val.value in cleared.revoked
        && GetCoverUrl(cleared, albumId, later).val == None
  {
    var first := GetCoverUrl(s, albumId, now);
    if first.val.Some? {
      assert first.st.metadata[albumId] == s.metadata[albumId];
    }
  }

  /** After `clearAll` every lookup misses and no memoised handle is left alive. */
  lemma ClearAllForgetsEverything(s: State, albumId: string, songKey: string, releaseId: string, now: int)
    requires s.supported && Registry(s)
    ensures var c := ClearAll(s);
      && IsAlbumCached(c, albumId, now) == Out(c, false)
      && GetCoverUrl(c, albumId, now) == Out(c, None)
      && GetSongUrl(c, albumId, songKey, now) == Out(c, None)
      && GetReleaseCoverUrl(c, releaseId, now) == Out(c, None)
      && GetReleaseAudioUrl(c, releaseId, now) == Out(c, None)
      && (forall sl :: sl in s.handles ==> s.handles[sl] in c.revoked)
  {
  }

  /** A release record without an audio URL never yields an audio handle unless
      one was memoised before. */
  lemma ReleaseWithoutAudio(s: State, release: Release, coverUrl: Url, fetched: map<Url, Payload>,
                            now: int, later: int)
    requires s.supported && ReleaseAudio(release.id) !in s.handles && later <= now + CACHE_EXPIRATION
    ensures var c := CacheRelease(s, release, coverUrl, None, fetched, now);
      && c.val == [coverUrl]
      && GetReleaseAudioUrl(c.st, release.id, later) == Out(c.st, None)
  {
  }

  /** The memo key `albumId:songKey` cannot collide between two catalog albums:
      album ids from the scanner contain no `/` and song keys start with
      `albums/`, so the first `/` of the memo key sits 7 characters after the end
      of the album id. */
  lemma SongCacheKeyInjective(a1: string, k1: string, a2: string, k2: string)
    requires forall i :: 0 <= i < |a1| ==> a1[i] != '/'
    requires forall i :: 0 <= i < |a2| ==> a2[i] != '/'
    requires StartsWith(k1, "albums/") && StartsWith(k2, "albums/")
    requires SongCacheKey(a1, k1) == SongCacheKey(a2, k2)
    ensures a1 == a2 && k1 == k2
  {
    var c := SongCacheKey(a1, k1);
    FirstSlashOfSongCacheKey(a1, k1);
    FirstSlashOfSongCacheKey(a2, k2);
    assert |a1| == |a2|;
    assert a1 == c[..|a1|] == a2;
    assert k1 == c[|a1| + 1..] == k2;
  }

  /** Where the first `/` of a catalog memo key is. */
  lemma FirstSlashOfSongCacheKey(a: string, k: string)
    requires forall i :: 0 <= i < |a| ==> a[i] != '/'
    requires StartsWith(k, "albums/")
    ensures IndexOf(SongCacheKey(a, k), "/") == Some(|a| + 7)
  {
    var c := SongCacheKey(a, k);
    assert k[..7] == "albums/";
    assert c[|a| + 7..|a| + 8] == [k[6]] == "/";
    assert OccursAt(c, "/", |a| + 7);
    forall j: nat | j < |a| + 7
      ensures !OccursAt(c, "/", j)
    {
      assert c[j..j + 1] == [c[j]];
      if j < |a| {
        assert c[j] == a[j];
      } else if j > |a| {
        assert c[j] == k[j - |a| - 1] == "albums/"[j - |a| - 1];
      }
    }
  }

  /** Clearing one catalog album leaves the song handles of every other catalog
      album alone. */
  lemma ClearAlbumSparesOtherAlbums(s: State, a: string, b: string, k: string)
    requires a != b
    requires forall i :: 0 <= i < |a| ==> a[i] != '/'
    requires forall i :: 0 <= i < |b| ==> b[i] != '/'
    requires StartsWith(k, "albums/")
    requires a in s.metadata && s.metadata[a].AlbumRecord?
    requires forall key :: key in s.metadata[a].audioUrls ==> StartsWith(key, "albums/")
    requires AlbumSong(SongCacheKey(b, k)) in s.handles
    ensures var c := ClearAlbum(s, a);
      AlbumSong(SongCacheKey(b, k)) in c.handles && c.handles[AlbumSong(SongCacheKey(b, k))] == s.handles[AlbumSong(SongCacheKey(b, k))]
  {
    var keys := s.metadata[a].audioUrls.Keys;
    if AlbumSong(SongCacheKey(b, k)) in SongSlots(a, keys) {
      var key :| key in keys && AlbumSong(SongCacheKey(a, key)) == AlbumSong(SongCacheKey(b, k));
      SongCacheKeyInjective(a, key, b, k);
    }
  }

  /** For albums produced by the bucket scan, two songs share a memo key only when
      they have the same album id and the same object key. */
  lemma ScannedSongCacheKeysDistinct(keys: seq<string>, a1: Album, s1: Song, a2: Album, s2: Song)
    requires a1 in Catalog.Scan(Some(keys)).albums && a2 in Catalog.Scan(Some(keys)).albums
    requires s1 in a1.songs && s2 in a2.songs
    requires SongCacheKey(a1.id, s1.key) == SongCacheKey(a2.id, s2.key)
    ensures a1.id == a2.id && s1.key == s2.key
  {
    Catalog.ScannedAlbumsHaveSlashFreeIds(keys, a1);
    Catalog.ScannedAlbumsHaveSlashFreeIds(keys, a2);
    forall i | 0 <= i < |a1.id|
      ensures a1.id[i] != '/'
    {
      assert a1.id[i] in a1.id;
    }
    forall i | 0 <= i < |a2.id|
      ensures a2.id[i] != '/'
    {
      assert a2.id[i] in a2.id;
    }
    SongCacheKeyInjective(a1.id, s1.key, a2.id, s2.key);
  }
}

=== FILE: catalog.dfy ===
/** Turning an object-store listing into albums and songs. The key rules are shared
    by the bucket scan of the presigned-URL service and by the legacy prefix scan:
    which keys are images and audio, the album folder of a key, and how album and
    song ids and titles are derived from folder and file names. */
module Catalog {
  import opened Types
  import opened Text

  // ---------------------------------------------------------------- key classes

  predicate IsImageExt(e: string)
  {
    e == ".jpg" || e == ".png" || e == ".jpeg"
  }

  predicate IsAudioExt(e: string)
  {
    e == ".mp3" || e == ".wav" || e == ".m4a"
  }

  /** Case-sensitive, as `endsWith` is. */
  predicate IsImageKey(k: string)
  {
    EndsWith(k, ".jpg") || EndsWith(k, ".png") || EndsWith(k, ".jpeg")
  }

  predicate IsAudioKey(k: string)
  {
    EndsWith(k, ".mp3") || EndsWith(k, ".wav") || EndsWith(k, ".m4a")
  }

  /** `keys.find(p)`, as the index of the first key satisfying `p`. */
  function Find(keys: seq<string>, p: string -> bool): (r: Option<nat>)
    ensures r.Some? ==> r.value < |keys| && p(keys[r.value])
    ensures r.Some? ==> forall j :: 0 <= j < r.value ==> !p(keys[j])
    ensures r.None? ==> forall j :: 0 <= j < |keys| ==> !p(keys[j])
  {
    if keys == [] then None
    else if p(keys[0]) then Some(0)
    else
      match Find(keys[1..], p)
      case None => None
      case Some(i) => Some(i + 1)
  }

  /** `keys.filter(p)`: the keys satisfying `p`, in listing order. */
  function Filter(keys: seq<string>, p: string -> bool): (r: seq<string>)
    ensures |r| <= |keys|
    ensures forall k :: k in r <==> k in keys && p(k)
  {
    if keys == [] then []
    else (if p(keys[0]) then [keys[0]] else []) + Filter(keys[1..], p)
  }

  /** Filtering keeps the listing order: it distributes over concatenation, and a
      single key is kept exactly when it satisfies `p`. With `Filter([], p) == []`
      these two facts determine the result, order and repeats included. */
  lemma FilterAppend(a: seq<string>, b: seq<string>, p: string -> bool)
    ensures Filter(a + b, p) == Filter(a, p) + Filter(b, p)
    ensures Filter([], p) == []
    ensures forall k :: Filter([k], p) == if p(k) then [k] else []
  {
    FilterConcat(a, b, p);
    forall k
      ensures Filter([k], p) == if p(k) then [k] else []
    {
      assert [k][1..] == [];
    }
  }

  lemma {:induction false} FilterConcat(a: seq<string>, b: seq<string>, p: string -> bool)
    ensures Filter(a + b, p) == Filter(a, p) + Filter(b, p)
    decreases |a|
  {
    if a == [] {
      assert a + b == b;
    } else {
      assert (a + b)[0] == a[0];
      assert (a + b)[1..] == a[1..] + b;
      FilterConcat(a[1..], b, p);
    }
  }

  /** `replace(/\.(jpg|png|jpeg)$/, '')`: drops one trailing image extension. */
  function StripImageExt(s: string): (r: string)
    ensures |r| <= |s| && r == s[..|r|]
    ensures IsImageKey(s) ==> IsImageExt(s[|r|..])
    ensures !IsImageKey(s) ==> r == s
  {
    if EndsWith(s, ".jpg") || EndsWith(s, ".png") then DropLast(s, 4)
    else if EndsWith(s, ".jpeg") then DropLast(s, 5)
    else s
  }

  /** `replace(/\.(mp3|wav|m4a)$/, '')`: drops one trailing audio extension. */
  function StripAudioExt(s: string): (r: string)
    ensures |r| <= |s| && r == s[..|r|]
    ensures IsAudioKey(s) ==> IsAudioExt(s[|r|..])
    ensures !IsAudioKey(s) ==> r == s
  {
    if IsAudioKey(s) then DropLast(s, 4) else s
  }

  // ---------------------------------------------------------------- folders

  /** The album folder of a key: the second `/`-segment of a key that has more than
      two segments and whose first segment is `albums`. A key lies in folder `f`
      exactly when it starts with `albums/f/`, so folder detection and the
      per-folder filter agree. */
  function FolderOf(key: string): (r: Option<string>)
    ensures r.Some? ==> '/' !in r.value && StartsWith(key, "albums/" + r.value + "/")
    ensures forall f :: '/' !in f && StartsWith(key, "albums/" + f + "/") ==> r == Some(f)
  {
    var parts := Split(key, '/');
    assert forall f :: '/' !in f && StartsWith(key, "albums/" + f + "/") ==>
      |parts| > 2 && parts[0] == "albums" && parts[1] == f by {
      forall f | '/' !in f && StartsWith(key, "albums/" + f + "/")
        ensures |parts| > 2 && parts[0] == "albums" && parts[1] == f
      {
        PrefixGivesSplit(key, f);
      }
    }
    if |parts| > 2 && parts[0] == "albums" then
      assert forall j :: 0 <= j < |parts[1]| ==> parts[1][j] != '/';
      SplitGivesPrefix(key);
      Some(parts[1])
    else None
  }

  /** A key starting with `albums/f/` splits into `albums`, `f` and at least one
      more segment. */
  lemma PrefixGivesSplit(key: string, f: string)
    requires '/' !in f
    requires StartsWith(key, "albums/" + f + "/")
    ensures var parts := Split(key, '/');
      |parts| > 2 && parts[0] == "albums" && parts[1] == f
  {
    var pre := "albums/" + f + "/";
    var rest := key[|pre|..];
    assert key == "albums" + ['/'] + (f + ['/'] + rest);
    SplitAfterPiece("albums", '/', f + ['/'] + rest);
    SplitAfterPiece(f, '/', rest);
  }

  /** A key whose segments are `albums`, a folder and more starts with
      `albums/<folder>/`. */
  lemma SplitGivesPrefix(key: string)
    requires var parts := Split(key, '/'); |parts| > 2 && parts[0] == "albums"
    ensures StartsWith(key, "albums/" + Split(key, '/')[1] + "/")
  {
    var parts := Split(key, '/');
    var f := parts[1];
    JoinSplit(key, '/');
    var tail := parts[1..];
    assert tail[0] == f && tail[1..] == parts[2..];
    var j2 := Join(parts[2..], '/');
    assert Join(tail, '/') == f + ['/'] + j2;
    assert Join(parts, '/') == "albums" + ['/'] + Join(tail, '/');
    assert key == ("albums/" + f + "/") + j2;
  }

  predicate Distinct(s: seq<string>)
  {
    forall i, j :: 0 <= i < j < |s| ==> s[i] != s[j]
  }

  /** Some key of the listing lies in folder `f`. */
  predicate HasFolder(keys: seq<string>, f: string)
  {
    exists i :: 0 <= i < |keys| && FolderOf(keys[i]) == Some(f)
  }

  /** The index of the first key of the listing that lies in folder `f`, or the
      length of the listing when there is none. */
  function FirstFolderIndex(keys: seq<string>, f: string): (r: nat)
    ensures r <= |keys|
    ensures r < |keys| ==> FolderOf(keys[r]) == Some(f)
    ensures forall j :: 0 <= j < r ==> FolderOf(keys[j]) != Some(f)
    decreases |keys|
  {
    if keys == [] || FolderOf(keys[0]) == Some(f) then 0
    else 1 + FirstFolderIndex(keys[1..], f)
  }

  /** The insertion-ordered set of folders: `acc` followed by the folders of `keys`
      not seen before, in the order of their first key. */
  function AddFolders(keys: seq<string>, acc: seq<string>): (r: seq<string>)
    ensures Distinct(acc) ==> Distinct(r)
    ensures |acc| <= |r| && r[..|acc|] == acc
    ensures forall f :: f in r <==> f in acc || HasFolder(keys, f)
    ensures forall i :: |acc| <= i < |r| ==> r[i] !in acc
    ensures forall i, j :: |acc| <= i < j < |r| ==> FirstFolderIndex(keys, r[i]) < FirstFolderIndex(keys, r[j])
    decreases |keys|
  {
    if keys == [] then acc
    else
      var acc' := AddFolder(acc, keys[0]);
      var r := AddFolders(keys[1..], acc');
      HasFolderCons(keys);
      AddFoldersOrderCons(keys, acc, acc', r);
      r
  }

  /** The set's `add` for the folder of one key. */
  function AddFolder(acc: seq<string>, key: string): (r: seq<string>)
    ensures Distinct(acc) ==> Distinct(r)
    ensures |acc| <= |r| && r[..|acc|] == acc
    ensures forall f :: f in r <==> f in acc || FolderOf(key) == Some(f)
  {
    match FolderOf(key)
    case Some(f) => if f in acc then acc else acc + [f]
    case None => acc
  }

  lemma HasFolderCons(keys: seq<string>)
    requires keys != []
    ensures forall f :: HasFolder(keys, f) <==> FolderOf(keys[0]) == Some(f) || HasFolder(keys[1..], f)
  {
    forall f | HasFolder(keys, f)
      ensures FolderOf(keys[0]) == Some(f) || HasFolder(keys[1..], f)
    {
      var i :| 0 <= i < |keys| && FolderOf(keys[i]) == Some(f);
      if i > 0 {
        assert keys[1..][i - 1] == keys[i];
      }
    }
    forall f | HasFolder(keys[1..], f)
      ensures HasFolder(keys, f)
    {
      var i :| 0 <= i < |keys[1..]| && FolderOf(keys[1..][i]) == Some(f);
      assert keys[i + 1] == keys[1..][i];
    }
  }

  /** One step of the folder pass keeps the new folders in first-key order. */
  lemma AddFoldersOrderCons(keys: seq<string>, acc: seq<string>, acc': seq<string>, r: seq<string>)
    requires keys != []
    requires acc' == AddFolder(acc, keys[0])
    requires |acc'| <= |r| && r[..|acc'|] == acc'
    requires forall i :: |acc'| <= i < |r| ==> r[i] !in acc'
    requires forall i, j :: |acc'| <= i < j < |r| ==> FirstFolderIndex(keys[1..], r[i]) < FirstFolderIndex(keys[1..], r[j])
    ensures forall i :: |acc| <= i < |r| ==> r[i] !in acc
    ensures forall i, j :: |acc| <= i < j < |r| ==> FirstFolderIndex(keys, r[i]) < FirstFolderIndex(keys, r[j])
  {
    assert |acc| <= |acc'| && acc'[..|acc|] == acc;
    forall i | |acc| <= i < |r|
      ensures r[i] !in acc
    {
      if i >= |acc'| {
        assert forall g :: g in acc ==> g in acc';
      } else {
        assert r[i] == acc'[i];
      }
    }
    // Every folder added from the tail differs from the head key's folder.
    forall i | |acc'| <= i < |r|
      ensures FirstFolderIndex(keys, r[i]) == 1 + FirstFolderIndex(keys[1..], r[i])
    {
      assert acc' != acc ==> acc'[|acc|] in acc';
      if FolderOf(keys[0]).Some? {
        assert FolderOf(keys[0]).value in acc';
      }
    }
    forall i, j | |acc| <= i < j < |r|
      ensures FirstFolderIndex(keys, r[i]) < FirstFolderIndex(keys, r[j])
    {
      if i < |acc'| {
        assert r[i] == acc'[i];
        assert FolderOf(keys[0]) == Some(r[i]);
      }
    }
  }

  /** The album folders of a listing, each once, in order of first appearance. */
  function AlbumFolders(keys: seq<string>): (r: seq<string>)
    ensures Distinct(r)
    ensures forall f :: f in r <==> HasFolder(keys, f)
    ensures forall i, j :: 0 <= i < j < |r| ==> FirstFolderIndex(keys, r[i]) < FirstFolderIndex(keys, r[j])
  {
    AddFolders(keys, [])
  }

  // ---------------------------------------------------------------- albums and songs

  /** The file name of a song key without its audio extension. */
  function SongName(key: string): string
  {
    StripAudioExt(LastPiece(key, '/'))
  }

  function MakeSong(albumId: string, albumTitle: string, key: string): Song
  {
    var name := SongName(key);
    Song(albumId + "-" + NormalizeId(name), ReplaceChar(name, '-', ' '), ARTIST, key, 0.0, albumTitle)
  }

  /** The album for folder name `name` whose files are `files`: none without an image
      key; otherwise the first image is the cover and every audio key, in listing
      order, becomes a song. */
  function MakeAlbum(name: string, files: seq<string>): (r: Option<Album>)
    ensures r.Some? <==> exists i :: 0 <= i < |files| && IsImageKey(files[i])
    ensures r.Some? ==> var a := r.value;
      && a.id == NormalizeId(name)
      && a.title == ReplaceChar(name, '-', ' ')
      && a.artist == ARTIST
      && (exists c :: 0 <= c < |files| && files[c] == a.coverKey && IsImageKey(files[c])
                        && forall j :: 0 <= j < c ==> !IsImageKey(files[j]))
      && (forall k :: k in SongKeys(a.songs) <==> k in files && IsAudioKey(k))
      && |a.songs| == |Filter(files, IsAudioKey)|
      && (forall i :: 0 <= i < |a.songs| ==> a.songs[i].key == Filter(files, IsAudioKey)[i])
      && (forall s :: s in a.songs ==>
            && s.album == a.title && s.artist == ARTIST && s.duration == 0.0
            && s.id == a.id + "-" + NormalizeId(SongName(s.key))
            && s.title == ReplaceChar(SongName(s.key), '-', ' '))
  {
    match Find(files, IsImageKey)
    case None => None
    case Some(c) =>
      var id := NormalizeId(name);
      var title := ReplaceChar(name, '-', ' ');
      var audio := Filter(files, IsAudioKey);
      var songs := seq(|audio|, i requires 0 <= i < |audio| => MakeSong(id, title, audio[i]));
      assert forall k :: k in SongKeys(songs) <==> k in audio by {
        forall k | k in audio
          ensures k in SongKeys(songs)
        {
          var i :| 0 <= i < |audio| && audio[i] == k;
          assert songs[i].key == k;
        }
      }
      Some(Album(id, title, ARTIST, files[c], songs))
  }

  /** The keys of the listing under `albums/<name>/`. */
  function FolderFiles(keys: seq<string>, name: string): seq<string>
  {
    Filter(keys, k => StartsWith(k, "albums/" + name + "/"))
  }

  /** The scan result: albums in folder order and the flat song list. */
  datatype Library = Library(albums: seq<Album>, songs: seq<Song>)

  /** All songs of the albums, album by album. */
  function AllSongs(albums: seq<Album>): seq<Song>
  {
    if albums == [] then [] else AllSongs(albums[..|albums| - 1]) + albums[|albums| - 1].songs
  }

  /** The album of one folder as a list of at most one. */
  function FolderAlbum(keys: seq<string>, f: string): (r: seq<Album>)
    ensures |r| <= 1
    ensures r != [] <==> MakeAlbum(f, FolderFiles(keys, f)).Some?
    ensures r != [] ==> r[0] == MakeAlbum(f, FolderFiles(keys, f)).value
  {
    match MakeAlbum(f, FolderFiles(keys, f))
    case None => []
    case Some(a) => [a]
  }

  /** The album a folder yields, if any. */
  function FolderAlbumOf(keys: seq<string>): string -> Option<Album>
  {
    f => MakeAlbum(f, FolderFiles(keys, f))
  }

  /** Whether a folder yields an album: some key under it is an image. */
  function Bearing(keys: seq<string>): string -> bool
  {
    f => MakeAlbum(f, FolderFiles(keys, f)).Some?
  }

  /** `out`, from index `n` on, holds exactly the values `g` gives the names `fs`,
      one per name and in the same order. */
  predicate Indexwise<T(==)>(out: seq<T>, n: nat, fs: seq<string>, g: string -> Option<T>)
  {
    |out| == n + |fs| && forall i :: 0 <= i < |fs| ==> Some(out[n + i]) == g(fs[i])
  }

  /** One step of a loop that appends, for each name in turn, the value `g` gives
      it when there is one: the names that yield a value are `Filter(names, p)`. */
  lemma IndexwiseCons<T>(names: seq<string>, p: string -> bool, g: string -> Option<T>,
                         prefix: seq<T>, head: seq<T>, out: seq<T>)
    requires names != []
    requires forall f :: p(f) <==> g(f).Some?
    requires head == (if g(names[0]).Some? then [g(names[0]).value] else [])
    requires |prefix + head| <= |out| && out[..|prefix + head|] == prefix + head
    requires Indexwise(out, |prefix + head|, Filter(names[1..], p), g)
    ensures |prefix| <= |out| && out[..|prefix|] == prefix
    ensures Indexwise(out, |prefix|, Filter(names, p), g)
  {
    var n := |prefix|;
    var m := |prefix + head|;
    var rest := Filter(names[1..], p);
    assert out[..n] == out[..m][..n];
    FilterHead(names, p);
    if g(names[0]).Some? {
      assert m == n + 1;
      assert out[n] == out[..m][n] == head[0];
      assert Filter(names, p) == [names[0]] + rest;
      IndexwiseShift(names[0], rest, g, out, n);
    } else {
      assert m == n;
      assert Filter(names, p) == rest;
    }
  }

  lemma FilterHead(names: seq<string>, p: string -> bool)
    requires names != []
    ensures Filter(names, p) == (if p(names[0]) then [names[0]] else []) + Filter(names[1..], p)
  {
  }

  /** Putting a name that yields `out[n]` in front of the names described from
      `n + 1` on describes the values from `n` on. */
  lemma IndexwiseShift<T>(f: string, fs: seq<string>, g: string -> Option<T>, out: seq<T>, n: nat)
    requires n < |out| && g(f) == Some(out[n])
    requires Indexwise(out, n + 1, fs, g)
    ensures Indexwise(out, n, [f] + fs, g)
  {
    var fs' := [f] + fs;
    forall i | 0 <= i < |fs'|
      ensures Some(out[n + i]) == g(fs'[i])
    {
      if i > 0 {
        assert fs'[i] == fs[i - 1];
        assert n + i == (n + 1) + (i - 1);
      }
    }
  }

  /** `out` extends `lib` by the albums of the image-bearing folders, one per
      folder, in folder order. */
  predicate FoldersFrom(keys: seq<string>, folders: seq<string>, lib: Library, out: Library)
  {
    && |lib.albums| <= |out.albums| && out.albums[..|lib.albums|] == lib.albums
    && Indexwise(out.albums, |lib.albums|, Filter(folders, Bearing(keys)), FolderAlbumOf(keys))
  }

  /** Processes the folders in order, appending each album with an image to the
      album list and its songs to the flat song list. */
  function ScanFolders(keys: seq<string>, folders: seq<string>, lib: Library): (r: Library)
    requires lib.songs == AllSongs(lib.albums)
    ensures r.songs == AllSongs(r.albums)
    ensures FoldersFrom(keys, folders, lib, r)
    decreases |folders|
  {
    if folders == [] then
      assert lib.albums[..|lib.albums|] == lib.albums;
      lib
    else
      var head := FolderAlbum(keys, folders[0]);
      var mid := lib.albums + head;
      var lib' := Library(mid, lib.songs + (if head == [] then [] else head[0].songs));
      assert lib'.songs == AllSongs(mid) by {
        if head != [] {
          assert mid[..|mid| - 1] == lib.albums;
          assert mid[|mid| - 1] == head[0];
          assert AllSongs(mid) == AllSongs(mid[..|mid| - 1]) + mid[|mid| - 1].songs;
        } else {
          assert mid == lib.albums;
        }
      }
      var r := ScanFolders(keys, folders[1..], lib');
      FoldersFromCons(keys, folders, lib, r);
      r
  }

  /** One step of the folder loop keeps `FoldersFrom`. */
  lemma FoldersFromCons(keys: seq<string>, folders: seq<string>, lib: Library, out: Library)
    requires folders != []
    requires FoldersFrom(keys, folders[1..], Library(lib.albums + FolderAlbum(keys, folders[0]), []), out)
    ensures FoldersFrom(keys, folders, lib, out)
  {
    var g := FolderAlbumOf(keys);
    assert forall f :: Bearing(keys)(f) <==> g(f).Some?;
    assert FolderAlbum(keys, folders[0]) == (if g(folders[0]).Some? then [g(folders[0]).value] else []);
    IndexwiseCons(folders, Bearing(keys), g, lib.albums, FolderAlbum(keys, folders[0]), out.albums);
  }

  /** The bucket scan: a failed listing yields the empty library. Otherwise the
      folders are taken in order of their first key, each folder that holds an
      image key gives exactly one album, in that order, and the flat song list is
      the albums' songs, album by album. */
  function Scan(listing: Option<seq<string>>): (r: Library)
    ensures r.songs == AllSongs(r.albums)
    ensures listing.None? ==> r == Library([], [])
    ensures listing.Some? ==>
      var fs := Filter(AlbumFolders(listing.value), Bearing(listing.value));
      && |r.albums| == |fs|
      && forall i :: 0 <= i < |fs| ==> Some(r.albums[i]) == MakeAlbum(fs[i], FolderFiles(listing.value, fs[i]))
    ensures listing.Some? ==> forall a :: a in r.albums ==>
              exists f :: HasFolder(listing.value, f) && MakeAlbum(f, FolderFiles(listing.value, f)) == Some(a)
    ensures listing.Some? ==> forall f :: HasFolder(listing.value, f) && MakeAlbum(f, FolderFiles(listing.value, f)).Some? ==>
              MakeAlbum(f, FolderFiles(listing.value, f)).value in r.albums
  {
    match listing
    case None => Library([], [])
    case Some(keys) =>
      var folders := AlbumFolders(keys);
      var r := ScanFolders(keys, folders, Library([], []));
      ScanIndexwise(keys, folders, r);
      ScanMembership(keys, folders, r);
      r
  }

  /** The scan's albums, index by index, from the folder loop's description. */
  lemma ScanIndexwise(keys: seq<string>, folders: seq<string>, r: Library)
    requires FoldersFrom(keys, folders, Library([], []), r)
    ensures var fs := Filter(folders, Bearing(keys));
      && |r.albums| == |fs|
      && forall i :: 0 <= i < |fs| ==> Some(r.albums[i]) == MakeAlbum(fs[i], FolderFiles(keys, fs[i]))
  {
    var fs := Filter(folders, Bearing(keys));
    forall i | 0 <= i < |fs|
      ensures Some(r.albums[i]) == MakeAlbum(fs[i], FolderFiles(keys, fs[i]))
    {
      assert Some(r.albums[0 + i]) == FolderAlbumOf(keys)(fs[i]);
    }
  }

  /** Album membership of the scan, read off its index-wise description. */
  lemma ScanMembership(keys: seq<string>, folders: seq<string>, r: Library)
    requires forall f :: f in folders <==> HasFolder(keys, f)
    requires var fs := Filter(folders, Bearing(keys));
      && |r.albums| == |fs|
      && forall i :: 0 <= i < |fs| ==> Some(r.albums[i]) == MakeAlbum(fs[i], FolderFiles(keys, fs[i]))
    ensures forall a :: a in r.albums ==>
              exists f :: HasFolder(keys, f) && MakeAlbum(f, FolderFiles(keys, f)) == Some(a)
    ensures forall f :: HasFolder(keys, f) && MakeAlbum(f, FolderFiles(keys, f)).Some? ==>
              MakeAlbum(f, FolderFiles(keys, f)).value in r.albums
  {
    var fs := Filter(folders, Bearing(keys));
    assert forall f :: f in fs <==> HasFolder(keys, f) && Bearing(keys)(f);
    IndexwiseMembers(fs, r.albums, FolderAlbumOf(keys));
  }

  /** The values an index-wise description lists are exactly the values of its
      names. */
  lemma IndexwiseMembers<T>(fs: seq<string>, out: seq<T>, g: string -> Option<T>)
    requires Indexwise(out, 0, fs, g)
    ensures forall x :: x in out ==> exists f :: f in fs && g(f) == Some(x)
    ensures forall f :: f in fs && g(f).Some? ==> g(f).value in out
  {
    forall x | x in out
      ensures exists f :: f in fs && g(f) == Some(x)
    {
      var i :| 0 <= i < |out| && out[i] == x;
      assert Some(out[0 + i]) == g(fs[i]);
    }
    forall f | f in fs && g(f).Some?
      ensures g(f).value in out
    {
      var i :| 0 <= i < |fs| && fs[i] == f;
      assert Some(out[0 + i]) == g(fs[i]);
    }
  }

  /** Every scanned album is safe to use in `albumId:songKey` memo keys: its id has
      no `/` and each of its song keys lies under `albums/`. */
  lemma ScannedAlbumsHaveSlashFreeIds(keys: seq<string>, a: Album)
    requires a in Scan(Some(keys)).albums
    ensures '/' !in a.id
    ensures forall s :: s in a.songs ==> StartsWith(s.key, "albums/")
  {
    var f :| HasFolder(keys, f) && MakeAlbum(f, FolderFiles(keys, f)) == Some(a);
    var i :| 0 <= i < |keys| && FolderOf(keys[i]) == Some(f);
    FolderAlbumHasSlashFreeId(keys, f, a);
  }

  lemma FolderAlbumHasSlashFreeId(keys: seq<string>, f: string, a: Album)
    requires '/' !in f
    requires MakeAlbum(f, FolderFiles(keys, f)) == Some(a)
    ensures '/' !in a.id
    ensures forall s :: s in a.songs ==> StartsWith(s.key, "albums/")
  {
    var pre := "albums/" + f + "/";
    assert pre[..7] == "albums/";
    forall s | s in a.songs
      ensures StartsWith(s.key, "albums/")
    {
      assert s.key in SongKeys(a.songs);
      assert s.key in FolderFiles(keys, f);
      assert StartsWith(s.key, pre);
      assert s.key[..7] == s.key[..|pre|][..7];
    }
  }
}

=== FILE: legacy.dfy ===
/** The older prefix-driven library scan: the bucket root is listed with `/` as
    delimiter, every common prefix is listed in turn, and each prefix whose
    listing holds an image becomes an album, with the same id, title and song
    rules as the bucket scan. Any failing listing empties the whole result. */
module Legacy {
  import opened Types
  import opened Text
  import opened Catalog

  /** `prefix.replace('albums/', '').replace('/', '')`: the first `albums/` and then
      the first `/` are removed. For a folder prefix `albums/<name>/` that is the
      folder name; the bare root prefix `albums/` gives the empty name, so a listing
      of the whole album tree collapses into one album with the empty id. */
  function LegacyAlbumName(prefix: string): (r: string)
    ensures (|prefix| >= 8 && prefix[..7] == "albums/" && prefix[|prefix| - 1] == '/'
             && '/' !in prefix[7..|prefix| - 1]) ==> r == prefix[7..|prefix| - 1]
    ensures prefix == "albums/" ==> r == ""
  {
    var r := ReplaceFirst(ReplaceFirst(prefix, "albums/", ""), "/", "");
    if |prefix| >= 8 && prefix[..7] == "albums/" && prefix[|prefix| - 1] == '/'
       && '/' !in prefix[7..|prefix| - 1] then
      var name := prefix[7..|prefix| - 1];
      assert prefix == "albums/" + (name + "/");
      RemoveLeadingOccurrence("albums/", name + "/");
      RemoveTrailingSlash(name);
      r
    else if prefix == "albums/" then
      RemoveLeadingOccurrence("albums/", "");
      assert "albums/" + "" == "albums/";
      assert IndexOf("", "/") == None;
      r
    else r
  }

  /** The album of one listed prefix, as the bucket scan would build it. */
  function LegacyAlbum(prefix: string, files: seq<string>): Option<Album>
  {
    MakeAlbum(LegacyAlbumName(prefix), files)
  }

  /** A prefix is listed when it is non-empty; the listing fails when `list` says so. */
  predicate ListingFails(prefixes: seq<string>, list: string -> Option<seq<string>>)
  {
    exists i :: 0 <= i < |prefixes| && prefixes[i] != "" && list(prefixes[i]).None?
  }

  /** The album one listed prefix contributes: none for an empty prefix, a failed
      listing or a listing without an image. */
  function PrefixAlbumOf(list: string -> Option<seq<string>>): string -> Option<Album>
  {
    p => if p == "" || list(p).None? then None else LegacyAlbum(p, list(p).value)
  }

  /** Whether a prefix contributes an album. */
  function Contributes(list: string -> Option<seq<string>>): string -> bool
  {
    p => PrefixAlbumOf(list)(p).Some?
  }

  /** The album contributed by one prefix, as a list of at most one. */
  function HeadAlbums(p: string, list: string -> Option<seq<string>>): (r: seq<Album>)
    ensures r == (if PrefixAlbumOf(list)(p).Some? then [PrefixAlbumOf(list)(p).value] else [])
  {
    if p == "" then []
    else match list(p)
      case None => []
      case Some(files) =>
        match LegacyAlbum(p, files)
        case None => []
        case Some(a) => [a]
  }

  /** `out` extends `lib` by the albums the prefixes contribute, one per
      contributing prefix, in prefix order. */
  predicate AlbumsFrom(prefixes: seq<string>, list: string -> Option<seq<string>>, lib: Library, out: Library)
  {
    && |lib.albums| <= |out.albums| && out.albums[..|lib.albums|] == lib.albums
    && Indexwise(out.albums, |lib.albums|, Filter(prefixes, Contributes(list)), PrefixAlbumOf(list))
  }

  /** The loop over the prefixes: an empty prefix is skipped, a failing listing
      aborts (None), and each prefix with an image appends its album and songs. */
  function LegacyFolders(prefixes: seq<string>, list: string -> Option<seq<string>>, lib: Library): (r: Option<Library>)
    requires lib.songs == AllSongs(lib.albums)
    ensures r.None? <==> ListingFails(prefixes, list)
    ensures r.Some? ==> r.value.songs == AllSongs(r.value.albums)
    ensures r.Some? ==> AlbumsFrom(prefixes, list, lib, r.value)
    decreases |prefixes|
  {
    if prefixes == [] then
      assert lib.albums[..|lib.albums|] == lib.albums;
      Some(lib)
    else if prefixes[0] != "" && list(prefixes[0]).None? then
      assert ListingFails(prefixes, list) by {
        assert prefixes[0] != "" && list(prefixes[0]).None?;
      }
      None
    else
      var head := HeadAlbums(prefixes[0], list);
      var lib' := Library(lib.albums + head, lib.songs + (if head == [] then [] else head[0].songs));
      assert head != [] ==> head == [head[0]];
      assert lib'.songs == AllSongs(lib'.albums) by {
        var mid := lib.albums + head;
        if head != [] {
          assert mid[..|mid| - 1] == lib.albums;
          assert mid[|mid| - 1] == head[0];
          assert AllSongs(mid) == AllSongs(mid[..|mid| - 1]) + mid[|mid| - 1].songs;
        } else {
          assert mid == lib.albums;
        }
      }
      var r := LegacyFolders(prefixes[1..], list, lib');
      LegacyTail(prefixes, list, r);
      if r.None? then r
      else
        AlbumsFromCons(prefixes, list, lib, r.value);
        r
  }

  /** One step of the loop keeps `AlbumsFrom`. */
  lemma AlbumsFromCons(prefixes: seq<string>, list: string -> Option<seq<string>>, lib: Library, out: Library)
    requires prefixes != []
    requires AlbumsFrom(prefixes[1..], list, Library(lib.albums + HeadAlbums(prefixes[0], list), []), out)
    ensures AlbumsFrom(prefixes, list, lib, out)
  {
    var g := PrefixAlbumOf(list);
    assert forall p :: Contributes(list)(p) <==> g(p).Some?;
    IndexwiseCons(prefixes, Contributes(list), g, lib.albums, HeadAlbums(prefixes[0], list), out.albums);
  }

  /** Failure of the whole loop versus failure of its tail. */
  lemma LegacyTail(prefixes: seq<string>, list: string -> Option<seq<string>>, r: Option<Library>)
    requires prefixes != []
    requires prefixes[0] == "" || list(prefixes[0]).Some?
    requires r.None? <==> ListingFails(prefixes[1..], list)
    ensures r.None? <==> ListingFails(prefixes, list)
  {
    if ListingFails(prefixes, list) {
      var i :| 0 <= i < |prefixes| && prefixes[i] != "" && list(prefixes[i]).None?;
      assert i > 0;
      assert prefixes[1..][i - 1] == prefixes[i];
    }
    if ListingFails(prefixes[1..], list) {
      var i :| 0 <= i < |prefixes[1..]| && prefixes[1..][i] != "" && list(prefixes[1..][i]).None?;
      assert prefixes[i + 1] == prefixes[1..][i];
    }
  }

  /** The legacy scan. `root` is the common-prefix list of the root listing (None
      when that listing fails; a response without prefixes is the empty list) and
      `list` lists the keys under one prefix (None when that listing fails). When
      every listing succeeds, the contributing prefixes give one album each, in
      prefix order. */
  function LegacyScan(root: Option<seq<string>>, list: string -> Option<seq<string>>): (r: Library)
    ensures r.songs == AllSongs(r.albums)
    ensures root.None? ==> r == Library([], [])
    ensures root.Some? && ListingFails(root.value, list) ==> r == Library([], [])
    ensures root.Some? && !ListingFails(root.value, list) ==>
      var ps := Filter(root.value, Contributes(list));
      && |r.albums| == |ps|
      && forall i :: 0 <= i < |ps| ==> Some(r.albums[i]) == PrefixAlbumOf(list)(ps[i])
    ensures root.Some? && !ListingFails(root.value, list) ==>
      && (forall a :: a in r.albums ==>
            exists p :: p in root.value && p != "" && LegacyAlbum(p, list(p).value) == Some(a))
      && (forall p :: p in root.value && p != "" && LegacyAlbum(p, list(p).value).Some? ==>
            LegacyAlbum(p, list(p).value).value in r.albums)
  {
    match root
    case None => Library([], [])
    case Some(prefixes) =>
      match LegacyFolders(prefixes, list, Library([], []))
      case None => Library([], [])
      case Some(lib) =>
        LegacyMembership(prefixes, list, lib);
        lib
  }

  /** Album membership of the legacy scan, read off its index-wise description. */
  lemma LegacyMembership(prefixes: seq<string>, list: string -> Option<seq<string>>, lib: Library)
    requires !ListingFails(prefixes, list)
    requires AlbumsFrom(prefixes, list, Library([], []), lib)
    ensures forall i :: 0 <= i < |Filter(prefixes, Contributes(list))| ==>
              Some(lib.albums[i]) == PrefixAlbumOf(list)(Filter(prefixes, Contributes(list))[i])
    ensures forall a :: a in lib.albums ==>
              exists p :: p in prefixes && p != "" && LegacyAlbum(p, list(p).value) == Some(a)
    ensures forall p :: p in prefixes && p != "" && LegacyAlbum(p, list(p).value).Some? ==>
              LegacyAlbum(p, list(p).value).value in lib.albums
  {
    var ps := Filter(prefixes, Contributes(list));
    var g := PrefixAlbumOf(list);
    forall i | 0 <= i < |ps|
      ensures Some(lib.albums[i]) == g(ps[i])
    {
      assert Some(lib.albums[0 + i]) == g(ps[i]);
    }
    IndexwiseMembers(ps, lib.albums, g);
    forall p | p in prefixes && p != ""
      ensures list(p).Some?
    {
      var i :| 0 <= i < |prefixes| && prefixes[i] == p;
    }
    forall a | a in lib.albums
      ensures exists p :: p in prefixes && p != "" && LegacyAlbum(p, list(p).value) == Some(a)
    {
      var p :| p in ps && g(p) == Some(a);
    }
    forall p | p in prefixes && p != "" && LegacyAlbum(p, list(p).value).Some?
      ensures LegacyAlbum(p, list(p).value).value in lib.albums
    {
      assert Contributes(list)(p);
    }
  }

  /** For a folder prefix `albums/<name>/` whose listing is the folder's keys, the
      legacy album is exactly the bucket scan's album for that folder. */
  lemma {:induction false} LegacyAgreesWithScan(keys: seq<string>, name: string)
    requires forall j :: 0 <= j < |name| ==> name[j] != '/'
    ensures LegacyAlbum("albums/" + name + "/", FolderFiles(keys, name)) == MakeAlbum(name, FolderFiles(keys, name))
  {
    var p := "albums/" + name + "/";
    assert p[..7] == "albums/" && p[7..|p| - 1] == name;
  }
}

=== FILE: player.dfy ===
/** The index arithmetic of the music player component: the album carousel that
    pages in steps of three, next/previous track with wrap-around and the
    "restart when more than three seconds in" rule, restoring the saved album and
    song on load, and the `m:ss` time display. */
module Player {
  import opened Types
  import opened Text

  /** Albums shown per carousel page. */
  const PAGE: nat := 3

  // ---------------------------------------------------------------- carousel

  /** The index clamping of `Array.prototype.slice`: a negative index counts from
      the end, and both ends are clamped to `[0, len]`. */
  function SliceIndex(i: int, len: nat): (r: nat)
    ensures r <= len
    ensures 0 <= i <= len ==> r == i
  {
    if i < 0 then (if len + i < 0 then 0 else len + i)
    else if i > len then len
    else i
  }

  /** `s.slice(start, end)`. */
  function Slice<T>(s: seq<T>, start: int, end: int): seq<T>
  {
    var a := SliceIndex(start, |s|);
    var b := SliceIndex(end, |s|);
    if a < b then s[a..b] else []
  }

  /** `getVisibleAlbums`: `albums.slice(index, index + 3)`. */
  function VisibleAlbums(albums: seq<Album>, index: int): (r: seq<Album>)
    ensures |r| <= PAGE
    ensures 0 <= index <= |albums| ==>
      r == albums[index..if index + PAGE <= |albums| then index + PAGE else |albums|]
  {
    Slice(albums, index, index + PAGE)
  }

  /** `nextSlide`: three albums on, or back to the first page when that would reach
      the end. */
  function NextSlide(index: int, len: nat): (r: int)
    ensures 0 <= index ==> 0 <= r
    ensures len > 0 ==> r < len
    ensures r == 0 || (r == index + PAGE && r < len)
    ensures index + PAGE < len ==> r == index + PAGE
    ensures index + PAGE >= len ==> r == 0
  {
    if index + PAGE >= len then 0 else index + PAGE
  }

  /** `prevSlide`: three albums back, or to the last (possibly partial-overlap) page
      `max(0, len - 3)` when that would go below zero. */
  function PrevSlide(index: int, len: nat): (r: int)
    ensures 0 <= r
    ensures len > 0 && index < len ==> r < len
    ensures r == index - PAGE || (index - PAGE < 0 && r == (if len >= PAGE then len - PAGE else 0))
  {
    if index - PAGE < 0 then (if len >= PAGE then len - PAGE else 0) else index - PAGE
  }

  /** Paging forward and back returns to the same page when forward did not wrap. */
  lemma PrevUndoesNext(index: int, len: nat)
    requires 0 <= index && index + PAGE < len
    ensures PrevSlide(NextSlide(index, len), len) == index
  {
  }

  /** Paging back and forward returns to the same page when back did not wrap. */
  lemma NextUndoesPrev(index: int, len: nat)
    requires 0 <= index - PAGE && index < len
    ensures NextSlide(PrevSlide(index, len), len) == index
  {
  }

  /** Paging back from the first page shows the last `min(3, len)` albums. */
  lemma PrevFromFirstPageShowsLastAlbums(albums: seq<Album>)
    ensures var p := PrevSlide(0, |albums|);
      VisibleAlbums(albums, p) == albums[if |albums| >= PAGE then |albums| - PAGE else 0..]
  {
  }

  /** Every index the carousel reaches from a valid index is valid again, and the
      page it shows is non-empty. */
  lemma CarouselStaysInRange(albums: seq<Album>, index: int)
    requires 0 <= index < |albums|
    ensures 0 <= NextSlide(index, |albums|) < |albums|
    ensures 0 <= PrevSlide(index, |albums|) < |albums|
    ensures VisibleAlbums(albums, NextSlide(index, |albums|)) != []
    ensures VisibleAlbums(albums, PrevSlide(index, |albums|)) != []
  {
  }

  // ---------------------------------------------------------------- tracks

  /** JavaScript `%` on integers: the remainder takes the sign of the dividend. */
  function JsRem(a: int, n: int): (r: int)
    requires n > 0
    ensures a >= 0 ==> r == a % n
    ensures a < 0 ==> r == -((-a) % n)
    ensures -n < r < n
  {
    if a >= 0 then a % n else -((-a) % n)
  }

  /** `nextTrack`: `(i + 1) % n`; nothing happens on an empty list. The release
      sentinel index -1 lands on the first song. */
  function NextTrack(i: int, n: nat): (r: int)
    ensures n == 0 ==> r == i
    ensures n > 0 && -1 <= i < n ==> r == if i + 1 < n then i + 1 else 0
  {
    if n == 0 then i
    else
      ModWrap(i + 1, n);
      JsRem(i + 1, n)
  }

  /** One wrap of `%`: below `2n` the remainder is the value or the value minus `n`. */
  lemma ModWrap(a: int, n: int)
    ensures 0 < n && 0 <= a < 2 * n ==> a % n == if a < n then a else a - n
  {
    if 0 < n && 0 <= a < 2 * n {
      ModWrapIn(a, n);
    }
  }

  lemma ModWrapIn(a: int, n: int)
    requires 0 < n && 0 <= a < 2 * n
    ensures a % n == if a < n then a else a - n
  {
    var q := a / n;
    assert a == q * n + a % n;
    if a < n {
      assert q == 0;
    } else {
      assert q == 1;
    }
  }

  /** The outcome of `prevTrack`. */
  datatype PrevMove =
    | Stay              // empty list: nothing happens
    | Restart           // more than 3 s in: back to 0 s, same track
    | Jump(index: int)  // to the previous track, from its start

  /** `prevTrack` at playback position `time` seconds. */
  function PrevTrack(i: int, n: nat, time: real): (r: PrevMove)
    ensures n == 0 <==> r == Stay
    ensures n > 0 ==> (r == Restart <==> time > 3.0)
    ensures r.Jump? && 0 <= i < n ==> r.index == if i > 0 then i - 1 else n - 1
  {
    if n == 0 then Stay
    else if time > 3.0 then Restart
    else
      ModWrap(i - 1 + n, n);
      Jump(JsRem(i - 1 + n, n))
  }

  /** Next then previous (within the first three seconds) is the identity on valid
      indices, and so is previous then next. */
  lemma TrackStepsInverse(i: int, n: nat)
    requires 0 <= i < n
    ensures PrevTrack(NextTrack(i, n), n, 0.0) == Jump(i)
    ensures NextTrack(PrevTrack(i, n, 0.0).index, n) == i
  {
  }

  /** From the release sentinel -1, `prevTrack` lands on the second-to-last song
      (the first song when there is only one). */
  lemma PrevFromSentinel(n: nat)
    requires n > 0
    ensures PrevTrack(-1, n, 0.0) == Jump(if n >= 2 then n - 2 else 0)
  {
    if n >= 2 {
      ModWrap(n - 2, n);
    }
  }

  // ---------------------------------------------------------------- restoring on load

  /** A stored `localStorage` value is used only when present and non-empty. */
  predicate Truthy(v: Option<string>)
  {
    v.Some? && v.value != ""
  }

  function AlbumId(a: Album): string
  {
    a.id
  }

  function SongId(s: Song): string
  {
    s.id
  }

  /** `findIndex(x => x.id === id)`: the index of the first element whose id is
      `id`, with `None` for -1. */
  function FirstWithId<T>(xs: seq<T>, idOf: T -> string, id: string): (r: Option<nat>)
    ensures r.Some? ==> r.value < |xs| && idOf(xs[r.value]) == id
    ensures r.Some? ==> forall j :: 0 <= j < r.value ==> idOf(xs[j]) != id
    ensures r.None? ==> forall j :: 0 <= j < |xs| ==> idOf(xs[j]) != id
  {
    if xs == [] then None
    else if idOf(xs[0]) == id then Some(0)
    else match FirstWithId(xs[1..], idOf, id)
      case None => None
      case Some(p) => Some(p + 1)
  }

  /** The saved album index when it parses to an index in range; else `current`. */
  function ApplySavedIndex(saved: string, len: nat, current: int): (r: int)
    ensures (ParseInt(saved).Some? && 0 <= ParseInt(saved).value < len) ==> r == ParseInt(saved).value
    ensures !(ParseInt(saved).Some? && 0 <= ParseInt(saved).value < len) ==> r == current
  {
    match ParseInt(saved)
    case Some(v) => if 0 <= v < len then v else current
    case None => current
  }

  /** The first restore block of `loadData`: a truthy saved index is applied when it
      is valid; only without one does a saved album id select the page holding that
      album, aligned down to a multiple of 3. */
  function RestoreFirstBlock(savedIndex: Option<string>, savedAlbumId: Option<string>,
                             albums: seq<Album>, current: int): int
  {
    if Truthy(savedIndex) then ApplySavedIndex(savedIndex.value, |albums|, current)
    else if Truthy(savedAlbumId) then
      match FirstWithId(albums, AlbumId, savedAlbumId.value)
      case Some(pos) => (pos / PAGE) * PAGE
      case None => current
    else current
  }

  /** The carousel index after `loadData`: the first block, then the second block,
      which applies the saved index once more. */
  function RestoreAlbumIndex(savedIndex: Option<string>, savedAlbumId: Option<string>,
                             albums: seq<Album>, current: int): (r: int)
    ensures 0 <= current < |albums| ==> 0 <= r < |albums|
    ensures (Truthy(savedIndex) && ParseInt(savedIndex.value).Some?
             && 0 <= ParseInt(savedIndex.value).value < |albums|) ==> r == ParseInt(savedIndex.value).value
    ensures (Truthy(savedIndex) && !(ParseInt(savedIndex.value).Some?
             && 0 <= ParseInt(savedIndex.value).value < |albums|)) ==> r == current
    ensures !Truthy(savedIndex) && Truthy(savedAlbumId) && FirstWithId(albums, AlbumId, savedAlbumId.value).Some? ==>
      var pos := FirstWithId(albums, AlbumId, savedAlbumId.value).value;
      r % PAGE == 0 && r <= pos < r + PAGE
    ensures !Truthy(savedIndex) && !(Truthy(savedAlbumId) && FirstWithId(albums, AlbumId, savedAlbumId.value).Some?) ==>
      r == current
  {
    var first := RestoreFirstBlock(savedIndex, savedAlbumId, albums, current);
    if Truthy(savedIndex) then ApplySavedIndex(savedIndex.value, |albums|, first) else first
  }

  /** The second restore block is redundant: it applies nothing the first did not. */
  lemma SecondRestoreBlockRedundant(savedIndex: Option<string>, savedAlbumId: Option<string>,
                                    albums: seq<Album>, current: int)
    ensures RestoreAlbumIndex(savedIndex, savedAlbumId, albums, current)
         == RestoreFirstBlock(savedIndex, savedAlbumId, albums, current)
  {
  }

  /** The carousel index that `nextSlide` and `prevSlide` save as a decimal string is
      the index restored on the next load. */
  lemma {:induction false} SavedSlideRestored(albums: seq<Album>, index: int, savedAlbumId: Option<string>, current: int)
    requires 0 <= index < |albums|
    ensures var next := NextSlide(index, |albums|);
      RestoreAlbumIndex(Some(NatToString(next)), savedAlbumId, albums, current) == next
    ensures var prev := PrevSlide(index, |albums|);
      RestoreAlbumIndex(Some(NatToString(prev)), savedAlbumId, albums, current) == prev
  {
    SavedIndexRestored(albums, NextSlide(index, |albums|), savedAlbumId, current);
    SavedIndexRestored(albums, PrevSlide(index, |albums|), savedAlbumId, current);
  }

  /** Any in-range index saved as a decimal string is restored as itself. */
  lemma SavedIndexRestored(albums: seq<Album>, k: nat, savedAlbumId: Option<string>, current: int)
    requires k < |albums|
    ensures RestoreAlbumIndex(Some(NatToString(k)), savedAlbumId, albums, current) == k
  {
    ParseIntNatToString(k);
  }

  /** An album restored by id is on the carousel page the restored index shows. */
  lemma RestoredAlbumVisible(savedAlbumId: string, albums: seq<Album>, current: int)
    requires savedAlbumId != ""
    requires FirstWithId(albums, AlbumId, savedAlbumId).Some?
    ensures var r := RestoreAlbumIndex(None, Some(savedAlbumId), albums, current);
      albums[FirstWithId(albums, AlbumId, savedAlbumId).value] in VisibleAlbums(albums, r)
  {
    var pos := FirstWithId(albums, AlbumId, savedAlbumId).value;
    var r := RestoreAlbumIndex(None, Some(savedAlbumId), albums, current);
    var v := VisibleAlbums(albums, r);
    assert v[pos - r] == albums[pos];
  }

  /** The song chosen on load: the index (`currentSongIndex`) and the song. */
  datatype SongChoice = SongChoice(index: int, song: Option<Song>)

  /** Song restore of `loadData`: the saved song when its id is found (index and
      song both set); otherwise the first song, with the index left as it was; no
      song at all when the list is empty. */
  function RestoreSong(savedSongId: Option<string>, songs: seq<Song>, index: int): (r: SongChoice)
    ensures Truthy(savedSongId) && FirstWithId(songs, SongId, savedSongId.value).Some? ==>
      var p := FirstWithId(songs, SongId, savedSongId.value).value;
      r == SongChoice(p, Some(songs[p])) && songs[p].id == savedSongId.value
    ensures !(Truthy(savedSongId) && FirstWithId(songs, SongId, savedSongId.value).Some?) ==>
      r.index == index && r.song == (if |songs| > 0 then Some(songs[0]) else None)
    ensures r.song.None? <==> |songs| == 0
  {
    if Truthy(savedSongId) then
      match FirstWithId(songs, SongId, savedSongId.value)
      case Some(p) => SongChoice(p, Some(songs[p]))
      case None => SongChoice(index, if |songs| > 0 then Some(songs[0]) else None)
    else SongChoice(index, if |songs| > 0 then Some(songs[0]) else None)
  }

  /** Starting from the initial index 0, the restored index always points at the
      restored song. */
  lemma RestoredIndexMatchesSong(savedSongId: Option<string>, songs: seq<Song>)
    ensures var c := RestoreSong(savedSongId, songs, 0);
      c.song.Some? ==> 0 <= c.index < |songs| && c.song.value == songs[c.index]
  {
  }

  // ---------------------------------------------------------------- time display

  /** `formatTime` on whole non-negative seconds: minutes, a colon, and the seconds
      padded to two digits. The display round-trips: reading it back gives the
      seconds; the minutes are not padded, so a leading `0` is the whole minutes
      field. */
  function FormatTime(seconds: nat): (r: string)
    ensures ParseClock(r) == Some(seconds)
    ensures |r| >= 4 && (r[0] == '0' ==> r[1] == ':')
    ensures r[0] == '0' ==> seconds < 60
  {
    var mins := seconds / 60;
    var secs := seconds % 60;
    var m := NatToString(mins);
    var p := (if secs < 10 then "0" else "") + NatToString(secs);
    TwoDigitSeconds(secs);
    NatToStringValue(mins);
    assert ':' !in m by {
      forall j | 0 <= j < |m|
        ensures m[j] != ':'
      {
        assert IsDigit(m[j]);
      }
    }
    assert ':' !in p by {
      forall j | 0 <= j < |p|
        ensures p[j] != ':'
      {
        assert IsDigit(p[j]);
      }
    }
    SplitAfterPiece(m, ':', p);
    SplitNoColon(p);
    m + ":" + p
  }

  /** Reads an `m:ss` display back into seconds: digits, a colon, exactly two digits
      below 60. */
  function ParseClock(t: string): (r: Option<nat>)
    ensures r.Some? ==> exists m :: 0 <= m < |t| && t[m] == ':'
  {
    var parts := Split(t, ':');
    if |parts| == 2 && parts[0] != [] && AllDigits(parts[0]) && |parts[1]| == 2 && AllDigits(parts[1])
       && DigitsValue(parts[1]) < 60 then
      JoinSplit(t, ':');
      assert t == parts[0] + [':'] + parts[1];
      assert t[|parts[0]|] == ':';
      Some(DigitsValue(parts[0]) * 60 + DigitsValue(parts[1]))
    else None
  }

  /** The seconds field is always two digits. */
  lemma TwoDigitSeconds(s: nat)
    requires s < 60
    ensures var p := (if s < 10 then "0" else "") + NatToString(s);
      |p| == 2 && AllDigits(p) && DigitsValue(p) == s
  {
    NatToStringValue(s);
    var d := NatToString(s);
    if s < 10 {
      assert d == [DigitChar(s)];
      var p := "0" + d;
      assert p[..1] == "0";
      assert DigitsValue(p) == DigitsValue(p[..1]) * 10 + DigitValue(p[1]);
    } else {
      assert d == NatToString(s / 10) + [DigitChar(s % 10)];
    }
  }

  lemma SplitNoColon(p: string)
    requires ':' !in p
    ensures Split(p, ':') == [p]
  {
    if p != [] {
      SplitNoColon(p[1..]);
      assert [p[0]] + p[1..] == p;
    }
  }
}

=== FILE: releases.dfy ===
/** The latest and upcoming release slots: deriving a `Release` from the keys
    listed under `latest/` or `upcoming/`. The title and date come from the cover
    file name (`Some-Title-YYYY-MM-DD.jpg`); for the upcoming slot a `.txt` sidecar
    can supply a missing date or replace the default title. */
module Releases {
  import opened Types
  import opened Text
  import opened Catalog

  const LATEST_DEFAULT_TITLE: string := "Latest Release"
  const UPCOMING_DEFAULT_TITLE: string := "Coming Soon"

  // ---------------------------------------------------------------- file names

  /** The last path segment of a cover key (the text after its last `/`) without
      its image extension. */
  function FileName(key: string): (r: string)
    ensures '/' !in r
    ensures var last := LastPiece(key, '/');
      && |r| <= |last| && r == last[..|r|]
      && (IsImageKey(last) ==> IsImageExt(last[|r|..]))
      && (!IsImageKey(last) ==> r == last)
  {
    var last := LastPiece(key, '/');
    var r := StripImageExt(last);
    assert forall j :: 0 <= j < |r| ==> r[j] == last[j];
    r
  }

  /** `\d{4}-\d{2}-\d{2}` matches `s` at index `i`. */
  predicate DateAt(s: string, i: nat)
  {
    && i + 10 <= |s|
    && IsDigit(s[i]) && IsDigit(s[i + 1]) && IsDigit(s[i + 2]) && IsDigit(s[i + 3])
    && s[i + 4] == '-' && IsDigit(s[i + 5]) && IsDigit(s[i + 6])
    && s[i + 7] == '-' && IsDigit(s[i + 8]) && IsDigit(s[i + 9])
  }

  /** A whole `YYYY-MM-DD` string. */
  predicate IsDate(d: string)
  {
    |d| == 10 && DateAt(d, 0)
  }

  /** `f.match(/(\d{4}-\d{2}-\d{2})$/)`: the date the file name ends with, if any. */
  function TrailingDate(f: string): (r: Option<string>)
    ensures r.Some? <==> |f| >= 10 && DateAt(f, |f| - 10)
    ensures r.Some? ==> IsDate(r.value) && f == f[..|f| - 10] + r.value
  {
    if |f| >= 10 && DateAt(f, |f| - 10) then Some(f[|f| - 10..]) else None
  }

  /** `f.replace(/-\d{4}-\d{2}-\d{2}$/, '')` for a name that ends in a date: the
      hyphen and date go only when the hyphen is there. */
  function TitlePart(f: string): (r: string)
    requires TrailingDate(f).Some?
    ensures |f| >= 11 && f[|f| - 11] == '-' ==> f == r + "-" + TrailingDate(f).value
    ensures !(|f| >= 11 && f[|f| - 11] == '-') ==> r == f
  {
    if |f| >= 11 && f[|f| - 11] == '-' then f[..|f| - 11] else f
  }

  /** A title part and a date joined by a hyphen are read back as that date and
      that title part. */
  lemma DatedNameRoundTrip(t: string, d: string)
    requires IsDate(d)
    ensures TrailingDate(t + "-" + d) == Some(d)
    ensures TitlePart(t + "-" + d) == t
  {
    var f := t + "-" + d;
    assert f[|f| - 10..] == d;
    assert forall j :: 0 <= j < 10 ==> f[|f| - 10 + j] == d[j];
    assert f[|f| - 11] == '-';
    assert f[..|f| - 11] == t;
  }

  // ---------------------------------------------------------------- title case

  /** `w.charAt(0).toUpperCase() + w.slice(1).toLowerCase()`. */
  function CapWord(w: string): (r: string)
    ensures |r| == |w|
  {
    if w == [] then [] else [UpperChar(w[0])] + Lower(w[1..])
  }

  function CapWords(ws: seq<string>): (r: seq<string>)
    ensures |r| == |ws|
    ensures forall i :: 0 <= i < |ws| ==> r[i] == CapWord(ws[i])
  {
    if ws == [] then [] else [CapWord(ws[0])] + CapWords(ws[1..])
  }

  /** `s.split('-').map(capitalise).join(' ')`, word by word. */
  function SplitCapJoin(s: string): string
  {
    Join(CapWords(Split(s, '-')), ' ')
  }

  /** The title-casing of release file names: hyphens become spaces, and each
      hyphen-separated word is capitalised and otherwise lower-cased. */
  function TitleCase(s: string): (r: string)
    ensures r == TitleCaseSpec(s)
  {
    TitleCaseMatchesSpec(s);
    SplitCapJoin(s)
  }

  /** The character-wise reading of title case: hyphens become spaces, a character
      that starts the string or follows a hyphen is upper-cased, every other one is
      lower-cased. */
  function TitleCaseSpec(s: string): (r: string)
    ensures |r| == |s|
  {
    seq(|s|, i requires 0 <= i < |s| =>
      if s[i] == '-' then ' '
      else if i == 0 || s[i - 1] == '-' then UpperChar(s[i])
      else LowerChar(s[i]))
  }

  lemma SplitNoSeparator(s: string, d: char)
    requires d !in s
    ensures Split(s, d) == [s]
  {
    if s != [] {
      SplitNoSeparator(s[1..], d);
      assert [s[0]] + s[1..] == s;
    }
  }

  /** Title case of an unhyphenated word is that word capitalised. */
  lemma TitleCaseWord(w: string)
    requires '-' !in w
    ensures SplitCapJoin(w) == CapWord(w) == TitleCaseSpec(w)
  {
    SplitNoSeparator(w, '-');
    assert CapWords([w]) == [CapWord(w)];
    if w != [] {
      forall i | 0 <= i < |w|
        ensures CapWord(w)[i] == TitleCaseSpec(w)[i]
      {
        if i > 0 {
          assert CapWord(w)[i] == Lower(w[1..])[i - 1] == LowerChar(w[i]);
        }
      }
    }
  }

  /** Title case of `w-rest` is the capitalised word, a space, and the title case of
      the rest. */
  lemma TitleCaseCons(w: string, rest: string)
    requires '-' !in w
    ensures SplitCapJoin(w + "-" + rest) == CapWord(w) + " " + SplitCapJoin(rest)
  {
    SplitAfterPiece(w, '-', rest);
    var ws := Split(rest, '-');
    assert CapWords([w] + ws) == [CapWord(w)] + CapWords(ws);
    assert ([CapWord(w)] + CapWords(ws))[1..] == CapWords(ws);
  }

  /** The character-wise definition splits the same way. */
  lemma TitleCaseSpecCons(w: string, rest: string)
    requires '-' !in w
    ensures TitleCaseSpec(w + "-" + rest) == TitleCaseSpec(w) + " " + TitleCaseSpec(rest)
  {
    var s := w + "-" + rest;
    var k := |w|;
    var lhs := TitleCaseSpec(s);
    var rhs := TitleCaseSpec(w) + " " + TitleCaseSpec(rest);
    forall i | 0 <= i < |s|
      ensures lhs[i] == rhs[i]
    {
      if i < k {
        assert s[i] == w[i];
        if i > 0 {
          assert s[i - 1] == w[i - 1];
        }
      } else if i > k {
        assert s[i] == rest[i - k - 1];
        if i > k + 1 {
          assert s[i - 1] == rest[i - k - 2];
        }
      }
    }
  }

  /** The word-wise and the character-wise definitions of title case agree. */
  lemma {:induction false} TitleCaseMatchesSpec(s: string)
    ensures SplitCapJoin(s) == TitleCaseSpec(s)
    decreases |s|
  {
    match IndexOf(s, "-")
    case None =>
      forall j | 0 <= j < |s|
        ensures s[j] != '-'
      {
        assert !OccursAt(s, "-", j);
        assert s[j..j + 1] == [s[j]];
      }
      TitleCaseWord(s);
    case Some(k) =>
      var w := s[..k];
      var rest := s[k + 1..];
      assert s[k..k + 1] == "-";
      forall j | 0 <= j < |w|
        ensures w[j] != '-'
      {
        assert !OccursAt(s, "-", j);
        assert s[j..j + 1] == [s[j]];
      }
      assert s == w + "-" + rest;
      TitleCaseCons(w, rest);
      TitleCaseSpecCons(w, rest);
      TitleCaseWord(w);
      TitleCaseMatchesSpec(rest);
  }

  /** Lower-casing a title-cased name gives the lower-cased name with hyphens turned
      into spaces. */
  lemma LowerTitleCase(f: string)
    ensures Lower(TitleCase(f)) == ReplaceChar(Lower(f), '-', ' ')
  {
    LowerTitleCaseSpec(f);
  }

  lemma LowerTitleCaseSpec(f: string)
    ensures Lower(TitleCaseSpec(f)) == ReplaceChar(Lower(f), '-', ' ')
  {
    var t := TitleCaseSpec(f);
    var a := Lower(t);
    var b := ReplaceChar(Lower(f), '-', ' ');
    forall i | 0 <= i < |f|
      ensures a[i] == b[i]
    {
      LowerOfCased(f[i]);
    }
  }

  /** Lower-casing undoes either case mapping. */
  lemma LowerOfCased(c: char)
    ensures LowerChar(UpperChar(c)) == LowerChar(c)
    ensures LowerChar(LowerChar(c)) == LowerChar(c)
  {
  }

  /** A title-cased file name reads "cover" in any case exactly when the file name
      itself does, so the default-title fallback is decided by the name alone. */
  lemma CoverFallbackIffNamedCover(f: string)
    ensures Lower(TitleCase(f)) == "cover" <==> Lower(f) == "cover"
  {
    LowerTitleCase(f);
    HyphensInCover(Lower(f));
  }

  /** "cover" has neither hyphens nor spaces, so turning hyphens into spaces cannot
      make or break it. */
  lemma HyphensInCover(x: string)
    ensures ReplaceChar(x, '-', ' ') == "cover" <==> x == "cover"
  {
    var y := ReplaceChar(x, '-', ' ');
    if y == "cover" {
      forall i | 0 <= i < 5
        ensures x[i] == "cover"[i]
      {
        assert y[i] == "cover"[i] != ' ';
      }
    }
    if x == "cover" {
      forall i | 0 <= i < 5
        ensures y[i] == "cover"[i]
      {
        assert x[i] == "cover"[i] != '-';
      }
    }
  }

  // ---------------------------------------------------------------- file-name reading

  /** What the cover file name says: a title, and a date when the name ends in one. */
  datatype NameInfo = NameInfo(title: string, date: Option<string>)

  /** The title and date read from the file name, with `defaultTitle` standing in for
      an undated name that title-cases to "cover". */
  function ReadName(f: string, defaultTitle: string): (r: NameInfo)
    ensures r.date == TrailingDate(f)
    ensures r.date.Some? ==> r.title == TitleCase(TitlePart(f))
    ensures r.date.None? ==> r.title == (if Lower(f) == "cover" then defaultTitle else TitleCase(f))
  {
    match TrailingDate(f)
    case Some(d) => NameInfo(TitleCase(TitlePart(f)), Some(d))
    case None =>
      var t := TitleCase(f);
      CoverFallbackIffNamedCover(f);
      NameInfo(if Lower(t) == "cover" then defaultTitle else t, None)
  }

  // ---------------------------------------------------------------- latest

  /** `getLatestRelease` without the signing and caching: none without an image key;
      otherwise the first image is the cover, the date is the file name's or `today`,
      and the audio key is the first audio key or "". */
  function LatestRelease(files: seq<string>, today: string): (r: Option<Release>)
    ensures r.None? <==> forall i :: 0 <= i < |files| ==> !IsImageKey(files[i])
    ensures r.Some? ==> var rel := r.value;
      && rel.id == LATEST_ID && rel.artist == ARTIST
      && Find(files, IsImageKey) == Some(IndexOfKey(files, rel.coverKey))
      && (rel.key == "" <==> forall i :: 0 <= i < |files| ==> !IsAudioKey(files[i]))
      && (rel.key != "" ==> Find(files, IsAudioKey) == Some(IndexOfKey(files, rel.key)))
      && rel.releaseDate == (match TrailingDate(FileName(rel.coverKey)) case Some(d) => d case None => today)
      && rel.title == ReadName(FileName(rel.coverKey), LATEST_DEFAULT_TITLE).title
  {
    match Find(files, IsImageKey)
    case None => None
    case Some(c) =>
      var info := ReadName(FileName(files[c]), LATEST_DEFAULT_TITLE);
      var audio := AudioKeyOf(files);
      FirstKeyIndex(files, c, IsImageKey);
      Some(Release(LATEST_ID, info.title, ARTIST, files[c],
                   match info.date case Some(d) => d case None => today, audio))
  }

  /** The first audio key of the listing, or "" when there is none. */
  function AudioKeyOf(files: seq<string>): (r: string)
    ensures r == "" <==> forall i :: 0 <= i < |files| ==> !IsAudioKey(files[i])
    ensures r != "" ==> Find(files, IsAudioKey) == Some(IndexOfKey(files, r))
  {
    match Find(files, IsAudioKey)
    case None => ""
    case Some(a) =>
      FirstKeyIndex(files, a, IsAudioKey);
      files[a]
  }

  /** The first index holding `k` (|files| when absent). */
  function IndexOfKey(files: seq<string>, k: string): (r: nat)
    ensures r <= |files|
    ensures r < |files| ==> files[r] == k
    ensures forall j :: 0 <= j < r ==> files[j] != k
  {
    if files == [] || files[0] == k then 0 else IndexOfKey(files[1..], k) + 1
  }

  /** The first key satisfying `p` is found again by its value. */
  lemma FirstKeyIndex(files: seq<string>, c: nat, p: string -> bool)
    requires Find(files, p) == Some(c)
    ensures IndexOfKey(files, files[c]) == c
  {
    var k := IndexOfKey(files, files[c]);
    assert k <= c;
    assert files[k] == files[c] && p(files[k]);
  }

  // ---------------------------------------------------------------- upcoming sidecar

  /** `tag` (lower case) occurs at index `i` of `s`, ignoring ASCII case. */
  predicate LabelAt(s: string, tag: string, i: nat)
  {
    i + |tag| <= |s| && Lower(s[i..i + |tag|]) == tag
  }

  /** The index of the first non-whitespace character at or after `j`. */
  function SkipFrom(s: string, j: nat): (k: nat)
    requires j <= |s|
    ensures j <= k <= |s|
    ensures forall m :: j <= m < k ==> IsSpace(s[m])
    ensures k == |s| || !IsSpace(s[k])
  {
    var rest := SkipSpaces(s[j..]);
    var k := |s| - |rest|;
    assert forall m :: j <= m < k ==> s[m] == s[j..][m - j];
    k
  }

  /** `/Release Date:\s*(\d{4}-\d{2}-\d{2})/i` tried at index `i`. Because `\s` and
      `\d` are disjoint, the greedy whitespace run can never give anything back. */
  function DateMatchAt(s: string, i: nat): (r: Option<string>)
    requires i <= |s|
    ensures r.Some? ==> IsDate(r.value) && LabelAt(s, "release date:", i)
  {
    if !LabelAt(s, "release date:", i) then None
    else
      var k := SkipFrom(s, i + 13);
      if DateAt(s, k) then
        var d := s[k..k + 10];
        forall j | 0 <= j < 10
          ensures d[j] == s[k + j]
        {
        }
        Some(d)
      else None
  }

  /** The leftmost match of the date pattern at or after `from`. */
  function DateMatchFrom(s: string, from: nat): (r: Option<string>)
    requires from <= |s|
    ensures r.Some? ==> IsDate(r.value)
    ensures r.Some? ==> exists i: nat :: from <= i <= |s| && DateMatchAt(s, i) == r
                          && forall j: nat :: from <= j < i ==> DateMatchAt(s, j).None?
    ensures r.None? ==> forall i: nat :: from <= i <= |s| ==> DateMatchAt(s, i).None?
    decreases |s| - from
  {
    var here := DateMatchAt(s, from);
    if here.Some? then here
    else if from == |s| then None
    else
      var r := DateMatchFrom(s, from + 1);
      assert forall j: nat :: from <= j <= from ==> DateMatchAt(s, j) == here;
      r
  }

  /** The date a sidecar text supplies, if any. */
  function SidecarDate(s: string): (r: Option<string>)
    ensures r.Some? ==> IsDate(r.value)
    ensures r.Some? ==> exists i: nat :: i <= |s| && DateMatchAt(s, i) == r
                          && forall j: nat :: j < i ==> DateMatchAt(s, j).None?
    ensures r.None? <==> forall i: nat :: i <= |s| ==> DateMatchAt(s, i).None?
  {
    DateMatchFrom(s, 0)
  }

  /** The index of the first `\n` at or after `k` (or the end). */
  function LineEnd(s: string, k: nat): (r: nat)
    requires k <= |s|
    ensures k <= r <= |s| && (r == |s| || s[r] == '\n')
    ensures forall m :: k <= m < r ==> s[m] != '\n'
    decreases |s| - k
  {
    if k == |s| || s[k] == '\n' then k else LineEnd(s, k + 1)
  }

  /** The largest index in `[j, k)` not holding `\n`. */
  function LastNonNewline(s: string, j: nat, k: nat): (r: Option<nat>)
    requires j <= k <= |s|
    ensures r.Some? ==> j <= r.value < k && s[r.value] != '\n'
    ensures r.Some? ==> forall m :: r.value < m < k ==> s[m] == '\n'
    ensures r.None? ==> forall m :: j <= m < k ==> s[m] == '\n'
    decreases k
  {
    if k == j then None
    else if s[k - 1] != '\n' then Some(k - 1)
    else LastNonNewline(s, j, k - 1)
  }

  /** `/Title:\s*([^\n]+)/i` tried at index `i`, with the regex backtracking spelled
      out: the greedy whitespace run stops at a non-space character, which starts
      the capture; when the text ends in whitespace, the run gives back characters
      until one that is not `\n` can start the capture. */
  function TitleMatchAt(s: string, i: nat): (r: Option<string>)
    requires i <= |s|
    ensures r.Some? ==> r.value != [] && '\n' !in r.value && LabelAt(s, "title:", i)
  {
    if !LabelAt(s, "title:", i) then None
    else
      var k := SkipFrom(s, i + 6);
      var start := if k < |s| then Some(k) else LastNonNewline(s, i + 6, k);
      match start
      case None => None
      case Some(m) =>
        LineSlice(s, m);
        Some(s[m..LineEnd(s, m)])
  }

  /** The rest of the line from a non-newline character is a non-empty text without
      a newline. */
  lemma LineSlice(s: string, m: nat)
    requires m < |s| && s[m] != '\n'
    ensures var e := LineEnd(s, m); s[m..e] != [] && '\n' !in s[m..e]
  {
    var e := LineEnd(s, m);
    forall j | 0 <= j < e - m
      ensures s[m..e][j] != '\n'
    {
      assert s[m..e][j] == s[m + j];
    }
  }

  /** The leftmost match of the title pattern at or after `from`. */
  function TitleMatchFrom(s: string, from: nat): (r: Option<string>)
    requires from <= |s|
    ensures r.Some? ==> r.value != [] && '\n' !in r.value
    ensures r.Some? ==> exists i: nat :: from <= i <= |s| && TitleMatchAt(s, i) == r
                          && forall j: nat :: from <= j < i ==> TitleMatchAt(s, j).None?
    ensures r.None? ==> forall i: nat :: from <= i <= |s| ==> TitleMatchAt(s, i).None?
    decreases |s| - from
  {
    var here := TitleMatchAt(s, from);
    if here.Some? then here
    else if from == |s| then None
    else
      var r := TitleMatchFrom(s, from + 1);
      assert forall j: nat :: from <= j <= from ==> TitleMatchAt(s, j) == here;
      r
  }

  /** The title line a sidecar text supplies, before trimming. */
  function SidecarTitle(s: string): (r: Option<string>)
    ensures r.Some? ==> r.value != [] && '\n' !in r.value
    ensures r.Some? ==> exists i: nat :: i <= |s| && TitleMatchAt(s, i) == r
                          && forall j: nat :: j < i ==> TitleMatchAt(s, j).None?
    ensures r.None? <==> forall i: nat :: i <= |s| ==> TitleMatchAt(s, i).None?
  {
    TitleMatchFrom(s, 0)
  }

  /** A sidecar that opens with `Release Date: <date>` yields that date. */
  lemma SidecarDateOfLeadingLine(d: string, rest: string)
    requires IsDate(d)
    ensures SidecarDate("Release Date: " + d + rest) == Some(d)
  {
    var s := "Release Date: " + d + rest;
    assert s[..13] == "Release Date:";
    assert Lower(s[0..13]) == "release date:";
    assert s[13] == ' ' && !IsSpace(s[14]);
    assert SkipFrom(s, 13) == 14;
    assert s[14..24] == d;
  }

  /** A sidecar that opens with `Title: <t>` on its own line yields `t`, when `t` is
      a non-empty line that does not start with whitespace. */
  lemma SidecarTitleOfLeadingLine(t: string, rest: string)
    requires t != [] && !IsSpace(t[0]) && '\n' !in t
    ensures SidecarTitle("Title: " + t + "\n" + rest) == Some(t)
  {
    assert "" + "Title: " + t + ("\n" + rest) == "Title: " + t + "\n" + rest;
    TitleMatchAtLabel("", t, "\n" + rest);
  }

  /** The documented sidecar layout, `Release Date: <date>` on the first line and
      `Title: <title>` on the second: the date comes from the first line and the
      title from the second, whether or not more lines follow. */
  lemma SidecarOfTwoLines(d: string, t: string, rest: string)
    requires IsDate(d)
    requires t != [] && !IsSpace(t[0]) && '\n' !in t
    requires rest == [] || rest[0] == '\n'
    ensures SidecarDate("Release Date: " + d + "\nTitle: " + t + rest) == Some(d)
    ensures SidecarTitle("Release Date: " + d + "\nTitle: " + t + rest) == Some(t)
  {
    var s := "Release Date: " + d + "\nTitle: " + t + rest;
    var tail := "\nTitle: " + t + rest;
    assert s == "Release Date: " + d + tail;
    assert s == ("Release Date: " + d + "\n") + "Title: " + t + rest;
    DateOnFirstLine(d, tail, s);
    TitleOnSecondLine(d, "Release Date: " + d + "\n", t, rest, s);
  }

  lemma DateOnFirstLine(d: string, tail: string, s: string)
    requires IsDate(d)
    requires s == "Release Date: " + d + tail
    ensures SidecarDate(s) == Some(d)
  {
    SidecarDateOfLeadingLine(d, tail);
  }

  lemma TitleOnSecondLine(d: string, p: string, t: string, rest: string, s: string)
    requires IsDate(d) && p == "Release Date: " + d + "\n"
    requires t != [] && !IsSpace(t[0]) && '\n' !in t
    requires rest == [] || rest[0] == '\n'
    requires s == p + "Title: " + t + rest
    ensures SidecarTitle(s) == Some(t)
  {
    var tail := "Title: " + t + rest;
    assert |p| == 25;
    TitleMatchAtLabel(p, t, rest);
    assert tail[..6] == "Title:";
    ConcatAssoc(p, "Title: ", t, rest);
    NoTitleOnDateLine(d, p, tail, s);
    LeftmostTitle(s, 25);
  }

  lemma ConcatAssoc(a: string, b: string, c: string, d: string)
    ensures a + b + c + d == a + (b + c + d)
  {
  }

  /** No title match starts on a `Release Date: <date>` first line. */
  lemma NoTitleOnDateLine(d: string, p: string, tail: string, s: string)
    requires IsDate(d) && p == "Release Date: " + d + "\n"
    requires |tail| >= 6 && tail[..6] == "Title:"
    requires s == p + tail
    ensures forall j: nat :: j < 25 ==> TitleMatchAt(s, j).None?
  {
    forall j: nat | j < 25
      ensures TitleMatchAt(s, j).None?
    {
      NoTitleLabelInDateLine(d, tail, j);
    }
  }

  /** The title of a sidecar is its leftmost title match. */
  lemma LeftmostTitle(s: string, i: nat)
    requires i <= |s| && TitleMatchAt(s, i).Some?
    requires forall j: nat :: j < i ==> TitleMatchAt(s, j).None?
    ensures SidecarTitle(s) == TitleMatchAt(s, i)
  {
  }

  /** No `title:` label starts inside a `Release Date: <date>` line. */
  lemma NoTitleLabelInDateLine(d: string, tail: string, j: nat)
    requires IsDate(d)
    requires |tail| >= 6 && tail[..6] == "Title:"
    requires j < 25
    ensures !LabelAt("Release Date: " + d + "\n" + tail, "title:", j)
  {
    var s := "Release Date: " + d + "\n" + tail;
    assert s[j + 5] != ':' || s[j] == ' ' by {
      if j + 5 < 14 {
        assert s[j + 5] == "Release Date: "[j + 5];
        assert s[7] == ' ';
      } else if j + 5 < 24 {
        assert s[j + 5] == d[j - 9];
      } else if j + 5 > 24 {
        assert s[j + 5] == tail[j - 20] == "Title:"[j - 20];
      }
    }
    assert Lower(s[j..j + 6])[5] == LowerChar(s[j + 5]);
    assert Lower(s[j..j + 6])[0] == LowerChar(s[j]);
  }

  /** `Title: <t>` at index `|p|` matches with capture `t` when `t` is a non-empty
      line not starting with whitespace and the line ends there. */
  lemma TitleMatchAtLabel(p: string, t: string, rest: string)
    requires t != [] && !IsSpace(t[0]) && '\n' !in t
    requires rest == [] || rest[0] == '\n'
    ensures TitleMatchAt(p + "Title: " + t + rest, |p|) == Some(t)
  {
    var s := p + "Title: " + t + rest;
    var i := |p|;
    var tail := "Title: " + t + rest;
    assert s[i..] == tail;
    assert s[i..i + 6] == tail[..6] == "Title:";
    assert Lower("Title:") == "title:";
    assert s[i + 6] == tail[6] == ' ';
    assert s[i + 7] == tail[7] == t[0];
    var e := i + 7 + |t|;
    forall m | i + 7 <= m < e
      ensures s[m] != '\n'
    {
      assert s[m] == tail[m - i] == t[m - i - 7];
    }
    assert e == |s| || s[e] == rest[0];
    LineEndAt(s, i + 7, e);
    assert s[i + 7..e] == t;
    TitleMatchAfterSpaces(s, i, i + 7);
  }

  /** When the label is followed by whitespace up to a character at `k` that is not
      whitespace, the capture is the rest of that line from `k`. */
  lemma TitleMatchAfterSpaces(s: string, i: nat, k: nat)
    requires LabelAt(s, "title:", i)
    requires i + 6 <= k < |s| && !IsSpace(s[k])
    requires forall m :: i + 6 <= m < k ==> IsSpace(s[m])
    ensures TitleMatchAt(s, i) == Some(s[k..LineEnd(s, k)])
  {
    assert SkipFrom(s, i + 6) == k;
  }

  /** `LineEnd` stops at the first newline or at the end of the text. */
  lemma {:induction false} LineEndAt(s: string, k: nat, e: nat)
    requires k <= e <= |s| && (e == |s| || s[e] == '\n')
    requires forall m :: k <= m < e ==> s[m] != '\n'
    ensures LineEnd(s, k) == e
    decreases e - k
  {
    if k < e {
      LineEndAt(s, k + 1, e);
    }
  }

  // ---------------------------------------------------------------- upcoming

  /** Which sidecar the upcoming lookup reads: the first `.txt` key, and only when
      the date is still empty or the title is still the default. */
  function SidecarToRead(files: seq<string>, title: string, date: string): (r: Option<string>)
    ensures r.Some? ==> (date == "" || title == UPCOMING_DEFAULT_TITLE) && IsTextKey(r.value) && r.value in files
    ensures r.Some? ==> exists i :: 0 <= i < |files| && files[i] == r.value
                          && forall j :: 0 <= j < i ==> !IsTextKey(files[j])
    ensures r.None? ==> (date != "" && title != UPCOMING_DEFAULT_TITLE) || forall i :: 0 <= i < |files| ==> !IsTextKey(files[i])
  {
    match Find(files, IsTextKey)
    case None => None
    case Some(m) => if date == "" || title == UPCOMING_DEFAULT_TITLE then Some(files[m]) else None
  }

  /** `k.endsWith('.txt')`: a sidecar text key. */
  predicate IsTextKey(k: string)
  {
    EndsWith(k, ".txt")
  }

  /** Applies a sidecar text: its date only fills an empty date, its trimmed title
      only replaces the default title. An empty or unreadable text changes nothing. */
  function ApplySidecar(title: string, date: string, content: Option<string>): (r: (string, string))
    ensures date != "" ==> r.1 == date
    ensures title != UPCOMING_DEFAULT_TITLE ==> r.0 == title
    ensures (content.None? || content == Some("")) ==> r == (title, date)
    ensures date == "" && content.Some? && SidecarDate(content.value).Some? ==> r.1 == SidecarDate(content.value).value
    ensures title == UPCOMING_DEFAULT_TITLE && content.Some? && SidecarTitle(content.value).Some? ==>
              r.0 == Trim(SidecarTitle(content.value).value)
    ensures content.Some? && SidecarDate(content.value).None? ==> r.1 == date
    ensures content.Some? && SidecarTitle(content.value).None? ==> r.0 == title
  {
    match content
    case None => (title, date)
    case Some(c) =>
      if c == "" then (title, date)
      else
        var d := match SidecarDate(c)
          case Some(v) => if date == "" then v else date
          case None => date;
        var t := match SidecarTitle(c)
          case Some(v) => if title == UPCOMING_DEFAULT_TITLE then Trim(v) else title
          case None => title;
        (t, d)
  }

  /** The date a file name gives, or "" when it gives none. */
  function NameDate(info: NameInfo): string
  {
    match info.date case Some(d) => d case None => ""
  }

  /** The upcoming slot's title and date for cover file name `f`: the file name's,
      overridden by the first sidecar where the rules allow; the date is "" when
      neither supplies one. */
  function UpcomingTitleAndDate(files: seq<string>, f: string, read: string -> Option<string>): (r: (string, string))
    ensures var info := ReadName(f, UPCOMING_DEFAULT_TITLE);
      && (info.date.Some? ==> r.1 == info.date.value)
      && (info.title != UPCOMING_DEFAULT_TITLE ==> r.0 == info.title)
      && (SidecarToRead(files, info.title, NameDate(info)).None? ==> r == (info.title, NameDate(info)))
      && (SidecarToRead(files, info.title, NameDate(info)).Some? ==>
            r == ApplySidecar(info.title, NameDate(info), read(SidecarToRead(files, info.title, NameDate(info)).value)))
  {
    var info := ReadName(f, UPCOMING_DEFAULT_TITLE);
    assert info.date.Some? ==> IsDate(info.date.value);
    var content := match SidecarToRead(files, info.title, NameDate(info))
      case None => None
      case Some(k) => read(k);
    ApplySidecar(info.title, NameDate(info), content)
  }

  /** `getUpcomingRelease` without the signing and caching. `read` gives a sidecar's
      text (`None` when reading it fails) and `in30` the date 30 days ahead. */
  function UpcomingRelease(files: seq<string>, read: string -> Option<string>, in30: string): (r: Option<Release>)
    ensures r.None? <==> forall i :: 0 <= i < |files| ==> !IsImageKey(files[i])
    ensures r.Some? ==> var rel := r.value;
      && rel.id == UPCOMING_ID && rel.artist == ARTIST
      && Find(files, IsImageKey) == Some(IndexOfKey(files, rel.coverKey))
      && rel.key == AudioKeyOf(files)
      && (in30 != "" ==> rel.releaseDate != "")
      && var td := UpcomingTitleAndDate(files, FileName(rel.coverKey), read);
         && rel.title == td.0
         && rel.releaseDate == (if td.1 == "" then in30 else td.1)
  {
    match Find(files, IsImageKey)
    case None => None
    case Some(c) =>
      FirstKeyIndex(files, c, IsImageKey);
      var td := UpcomingTitleAndDate(files, FileName(files[c]), read);
      Some(Release(UPCOMING_ID, td.0, ARTIST, files[c], if td.1 == "" then in30 else td.1, AudioKeyOf(files)))
  }

  /** When the file name already gives a date and a non-default title, the sidecar
      is not read: any two readers give the same release. */
  lemma UpcomingSkipsSidecar(files: seq<string>, read1: string -> Option<string>,
                             read2: string -> Option<string>, in30: string, c: nat)
    requires Find(files, IsImageKey) == Some(c)
    requires var info := ReadName(FileName(files[c]), UPCOMING_DEFAULT_TITLE);
      info.date.Some? && info.title != UPCOMING_DEFAULT_TITLE
    ensures UpcomingRelease(files, read1, in30) == UpcomingRelease(files, read2, in30)
  {
  }

  /** Without a date in the file name or a readable dated sidecar, the upcoming
      release is dated 30 days ahead. */
  lemma UpcomingDefaultsToIn30(files: seq<string>, read: string -> Option<string>, in30: string, c: nat)
    requires in30 != ""
    requires Find(files, IsImageKey) == Some(c)
    requires TrailingDate(FileName(files[c])).None?
    requires forall k :: k in files ==> read(k).None?
    ensures UpcomingRelease(files, read, in30).Some?
    ensures UpcomingRelease(files, read, in30).value.releaseDate == in30
  {
  }
}

=== FILE: resolve.dfy ===
/** The resolution layer of the presigned-URL service: handing out a playable link
    for a cover or a song (a cached object-URL handle when the cache has one,
    otherwise a freshly signed URL), pre-caching a whole album, and the release
    lookups that sign and cache what they find. The signer `getSignedUrl` is the
    `sign` parameter: `sign(key)` is the signed URL for an object key, `None` when
    signing throws. */
module Resolve {
  import opened Types
  import opened Text
  import opened Cache
  import opened Catalog
  import opened Releases

  type Signer = string -> Option<Url>

  /** A link handed to the player: a cached object-URL handle or a signed URL. */
  datatype Link = CachedLink(handle: Handle) | SignedLink(url: Url)

  // ---------------------------------------------------------------- covers

  /** The cover side-fetch of `getPresignedCoverUrl`: when the Cache API exists and
      the fetch succeeds, the body is stored under the signed URL and the metadata
      record either gets the new `coverUrl` (nothing else changes) or, when there is
      none, is created with no songs and a 7-day expiry. Handles are untouched. */
  function UpsertCover(s: State, album: Album, url: Url, fetched: map<Url, Payload>, now: int): (r: State)
    ensures !(s.supported && url in fetched) ==> r == s
    ensures s.supported && url in fetched ==>
      && r.files == s.files[url := fetched[url]]
      && r.metadata == s.metadata[album.id :=
           if album.id in s.metadata then s.metadata[album.id].(coverUrl := url)
           else AlbumRecord(album, map[], url, now, now + CACHE_EXPIRATION)]
    ensures r == s.(files := r.files, metadata := r.metadata)
    ensures Registry(s) ==> Registry(r)
  {
    if !s.supported || url !in fetched then s
    else
      var rec := if album.id in s.metadata then s.metadata[album.id].(coverUrl := url)
                 else AlbumRecord(album, map[], url, now, now + CACHE_EXPIRATION);
      s.(files := s.files[url := fetched[url]], metadata := s.metadata[album.id := rec])
  }

  /** `getPresignedCoverUrl`: the cached cover handle if the cache has one; else the
      signed URL, after the awaited side-fetch. `None` when signing throws (the
      error propagates to the caller). */
  function ResolveCoverUrl(s: State, album: Album, sign: Signer, fetched: map<Url, Payload>, now: int)
    : (r: Out<Option<Link>>)
    ensures var hit := GetCoverUrl(s, album.id, now);
      && (hit.val.Some? ==> r == Out(hit.st, Some(CachedLink(hit.val.value))))
      && (hit.val.None? && sign(album.coverKey).None? ==> r == Out(hit.st, None))
      && (hit.val.None? && sign(album.coverKey).Some? ==>
            r == Out(UpsertCover(hit.st, album, sign(album.coverKey).value, fetched, now),
                     Some(SignedLink(sign(album.coverKey).value))))
    ensures r.st.inProgress == s.inProgress
    ensures Registry(s) ==> Registry(r.st)
  {
    var hit := GetCoverUrl(s, album.id, now);
    if hit.val.Some? then Out(hit.st, Some(CachedLink(hit.val.value)))
    else
      match sign(album.coverKey)
      case None => Out(hit.st, None)
      case Some(url) => Out(UpsertCover(hit.st, album, url, fetched, now), Some(SignedLink(url)))
  }

  /** The cover upsert never makes an album count as cached: a record it creates has
      no songs, and a record it patches keeps its songs. */
  lemma UpsertKeepsCachedStatus(s: State, album: Album, url: Url, fetched: map<Url, Payload>, now: int, later: int)
    requires album.id !in s.metadata || s.metadata[album.id].AlbumRecord?
    ensures var u := UpsertCover(s, album, url, fetched, now);
      IsAlbumCached(u, album.id, later).val == (IsAlbumCached(s, album.id, later).val && album.id in s.metadata)
  {
  }

  /** After a successful cover side-fetch on an album with no record, a later
      `getCoverUrl` within the seven days yields a handle, and a second resolution
      returns that cached handle without signing. */
  lemma CoverCachedAfterResolve(s: State, album: Album, sign: Signer, fetched: map<Url, Payload>, now: int, later: int)
    requires s.supported && Registry(s)
    requires AlbumCover(album.id) !in s.handles && album.id !in s.metadata
    requires sign(album.coverKey).Some? && sign(album.coverKey).value in fetched
    requires later <= now + CACHE_EXPIRATION
    ensures var first := ResolveCoverUrl(s, album, sign, fetched, now);
      && first.val == Some(SignedLink(sign(album.coverKey).value))
      && ResolveCoverUrl(first.st, album, sign, fetched, later).val.value.CachedLink?
  {
  }

  // ---------------------------------------------------------------- songs

  /** `getPresignedUrl(key, albumId)`: the cached song handle if the cache has one,
      else the signed URL. */
  function ResolveSongUrl(s: State, key: string, albumId: string, sign: Signer, now: int): (r: Out<Option<Link>>)
    ensures var hit := GetSongUrl(s, albumId, key, now);
      && r.st == hit.st
      && (hit.val.Some? ==> r.val == Some(CachedLink(hit.val.value)))
      && (hit.val.None? ==> r.val == (match sign(key) case Some(u) => Some(SignedLink(u)) case None => None))
    ensures Registry(s) ==> Registry(r.st)
  {
    var hit := GetSongUrl(s, albumId, key, now);
    if hit.val.Some? then Out(hit.st, Some(CachedLink(hit.val.value)))
    else
      match sign(key)
      case None => Out(hit.st, None)
      case Some(u) => Out(hit.st, Some(SignedLink(u)))
  }

  // ---------------------------------------------------------------- whole albums

  /** The signed song map of `cacheEntireAlbum`, built song by song in album order;
      `None` when some signing throws. */
  function SignSongs(songs: seq<Song>, sign: Signer, acc: map<string, Url>): (r: Option<map<string, Url>>)
    ensures r.None? <==> exists i :: 0 <= i < |songs| && sign(songs[i].key).None?
    ensures r.Some? ==> r.value.Keys == acc.Keys + SongKeys(songs)
    ensures r.Some? ==> forall k :: k in r.value ==> r.value[k] == (if k in SongKeys(songs) then sign(k).value else acc[k])
    decreases |songs|
  {
    if songs == [] then Some(acc)
    else
      match sign(songs[0].key)
      case None => None
      case Some(u) =>
        var r := SignSongs(songs[1..], sign, acc[songs[0].key := u]);
        assert SongKeys(songs) == {songs[0].key} + SongKeys(songs[1..]) by {
          assert forall x :: x in songs <==> x == songs[0] || x in songs[1..];
        }
        assert (exists i :: 0 <= i < |songs| && sign(songs[i].key).None?)
               <==> (exists i :: 0 <= i < |songs[1..]| && sign(songs[1..][i].key).None?) by {
          if exists i :: 0 <= i < |songs| && sign(songs[i].key).None? {
            var i :| 0 <= i < |songs| && sign(songs[i].key).None?;
            assert i > 0 && songs[1..][i - 1] == songs[i];
          }
        }
        r
  }

  /** The object keys `cacheEntireAlbum` signs, in order, stopping at the first that
      fails. */
  function SignedKeys(songs: seq<Song>, sign: Signer): (r: seq<string>)
    ensures |r| <= |songs|
    ensures forall i :: 0 <= i < |r| ==> r[i] == songs[i].key
    ensures (forall i :: 0 <= i < |songs| ==> sign(songs[i].key).Some?) ==> |r| == |songs|
  {
    if songs == [] then []
    else if sign(songs[0].key).None? then [songs[0].key]
    else [songs[0].key] + SignedKeys(songs[1..], sign)
  }

  /** What `cacheEntireAlbum` did: the keys it passed to the signer, in order. */
  datatype Attempt = Attempt(signed: seq<string>)

  /** `cacheEntireAlbum`: nothing is signed when the album is already cached; else the
      cover and every song are signed in order and `cacheAlbum` receives one URL per
      song key. A signing failure aborts the call (the error is swallowed). */
  function EnsureAlbumCached(s: State, album: Album, sign: Signer, fetched: map<Url, Payload>, now: int)
    : (r: Out<Attempt>)
    ensures var check := IsAlbumCached(s, album.id, now);
      && (check.val ==> r == Out(check.st, Attempt([])))
      && (!check.val && sign(album.coverKey).None? ==> r == Out(check.st, Attempt([album.coverKey])))
      && (!check.val && sign(album.coverKey).Some? ==>
            && r.val.signed == [album.coverKey] + SignedKeys(album.songs, sign)
            && match SignSongs(album.songs, sign, map[])
               case None => r.st == check.st
               case Some(urls) =>
                 && urls.Keys == SongKeys(album.songs)
                 && r.st == CacheAlbum(check.st, album, sign(album.coverKey).value, urls, fetched, now).st)
    ensures Registry(s) ==> Registry(r.st)
  {
    var check := IsAlbumCached(s, album.id, now);
    if check.val then Out(check.st, Attempt([]))
    else
      match sign(album.coverKey)
      case None => Out(check.st, Attempt([album.coverKey]))
      case Some(coverUrl) =>
        var tried := [album.coverKey] + SignedKeys(album.songs, sign);
        match SignSongs(album.songs, sign, map[])
        case None => Out(check.st, Attempt(tried))
        case Some(urls) => Out(CacheAlbum(check.st, album, coverUrl, urls, fetched, now).st, Attempt(tried))
  }

  /** Pre-caching an uncached album and then pre-caching it again within the seven
      days signs nothing the second time, as long as every signing succeeded and the
      first run stored at least one song. */
  lemma EnsureTwiceSignsOnce(s: State, album: Album, sign: Signer, fetched: map<Url, Payload>, now: int, later: int)
    requires s.supported && album.id !in s.inProgress && !IsAlbumCached(s, album.id, now).val
    requires sign(album.coverKey).Some?
    requires forall i :: 0 <= i < |album.songs| ==> sign(album.songs[i].key).Some?
    requires exists i :: 0 <= i < |album.songs| && sign(album.songs[i].key).value != ""
                         && sign(album.songs[i].key).value in fetched
    requires later <= now + CACHE_EXPIRATION
    ensures var first := EnsureAlbumCached(s, album, sign, fetched, now);
      EnsureAlbumCached(first.st, album, sign, fetched, later).val.signed == []
  {
    var check := IsAlbumCached(s, album.id, now);
    RecheckAfterMiss(s, album.id, now);
    var urls := SignSongs(album.songs, sign, map[]).value;
    var i :| 0 <= i < |album.songs| && sign(album.songs[i].key).value != ""
             && sign(album.songs[i].key).value in fetched;
    var k := album.songs[i].key;
    assert k in SongKeys(album.songs);
    assert album.songs[i] in album.songs;
    assert k in StoredKeys(album.songs, urls, fetched);
    CachedAfterCaching(check.st, album, sign(album.coverKey).value, urls, fetched, now, later);
  }

  /** A miss leaves a state in which the album is still a miss, with the flags as
      they were. */
  lemma RecheckAfterMiss(s: State, albumId: string, now: int)
    requires !IsAlbumCached(s, albumId, now).val
    ensures var st := IsAlbumCached(s, albumId, now).st;
      && st.supported == s.supported && st.inProgress == s.inProgress
      && !IsAlbumCached(st, albumId, now).val
  {
  }

  /** The cached status a completed `cacheAlbum` leaves behind. */
  lemma CachedAfterCaching(s: State, album: Album, coverUrl: Url, urls: map<string, Url>, fetched: map<Url, Payload>,
                           now: int, later: int)
    requires s.supported && album.id !in s.inProgress && !IsAlbumCached(s, album.id, now).val
    requires StoredKeys(album.songs, urls, fetched) != {}
    requires later <= now + CACHE_EXPIRATION
    ensures IsAlbumCached(CacheAlbum(s, album, coverUrl, urls, fetched, now).st, album.id, later).val
  {
    var k :| k in StoredKeys(album.songs, urls, fetched);
    assert k in StoredSongUrls(album.songs, urls, fetched);
  }

  // ---------------------------------------------------------------- releases

  /** Signs a release's cover and, when it has an audio key, its audio; `None` when a
      signing throws. The second component is `undefined` for a release without
      audio. */
  function SignRelease(rel: Release, sign: Signer): (r: Option<(Url, Option<Url>)>)
    ensures r.Some? <==> sign(rel.coverKey).Some? && (rel.key != "" ==> sign(rel.key).Some?)
    ensures r.Some? ==> r.value.0 == sign(rel.coverKey).value
    ensures r.Some? ==> r.value.1 == (if rel.key == "" then None else sign(rel.key))
  {
    match sign(rel.coverKey)
    case None => None
    case Some(c) =>
      if rel.key == "" then Some((c, None))
      else match sign(rel.key)
        case None => None
        case Some(a) => Some((c, Some(a)))
  }

  /** Signs and caches a derived release; any failure makes the lookup yield null
      and leaves the cache alone. The caching is fire-and-forget in the source and is
      applied in the same step here. */
  function PublishRelease(s: State, rel: Option<Release>, sign: Signer, fetched: map<Url, Payload>, now: int)
    : (r: Out<Option<Release>>)
    ensures rel.None? ==> r == Out(s, None)
    ensures rel.Some? && SignRelease(rel.value, sign).None? ==> r == Out(s, None)
    ensures rel.Some? && SignRelease(rel.value, sign).Some? ==>
      var urls := SignRelease(rel.value, sign).value;
      r == Out(CacheRelease(s, rel.value, urls.0, urls.1, fetched, now).st, rel)
    ensures Registry(s) ==> Registry(r.st)
  {
    match rel
    case None => Out(s, None)
    case Some(release) =>
      match SignRelease(release, sign)
      case None => Out(s, None)
      case Some(urls) => Out(CacheRelease(s, release, urls.0, urls.1, fetched, now).st, rel)
  }

  /** `getLatestRelease`: `listing` is the listing under `latest/` (`None` when the
      listing throws) and `today` the current date. */
  function LatestReleaseStep(s: State, listing: Option<seq<string>>, today: string, sign: Signer,
                             fetched: map<Url, Payload>, now: int): (r: Out<Option<Release>>)
    ensures listing.None? ==> r == Out(s, None)
    ensures listing.Some? ==> r == PublishRelease(s, LatestRelease(listing.value, today), sign, fetched, now)
    ensures r.val.Some? ==> r.val.value.id == LATEST_ID
  {
    match listing
    case None => Out(s, None)
    case Some(files) => PublishRelease(s, LatestRelease(files, today), sign, fetched, now)
  }

  /** `getUpcomingRelease`: as above under `upcoming/`, with the sidecar reader and
      the date 30 days ahead. */
  function UpcomingReleaseStep(s: State, listing: Option<seq<string>>, read: string -> Option<string>,
                               in30: string, sign: Signer, fetched: map<Url, Payload>, now: int)
    : (r: Out<Option<Release>>)
    ensures listing.None? ==> r == Out(s, None)
    ensures listing.Some? ==> r == PublishRelease(s, UpcomingRelease(listing.value, read, in30), sign, fetched, now)
    ensures r.val.Some? ==> r.val.value.id == UPCOMING_ID
  {
    match listing
    case None => Out(s, None)
    case Some(files) => PublishRelease(s, UpcomingRelease(files, read, in30), sign, fetched, now)
  }

  /** A release found and cached with a fetched cover is served from the cache for
      seven days: `getReleaseCoverUrl` yields a handle. */
  lemma LatestCoverServedFromCache(s: State, files: seq<string>, today: string, sign: Signer,
                                   fetched: map<Url, Payload>, now: int, later: int)
    requires s.supported && ReleaseCover(LATEST_ID) !in s.handles
    requires later <= now + CACHE_EXPIRATION
    requires forall k :: sign(k).Some? && sign(k).value in fetched
    ensures var step := LatestReleaseStep(s, Some(files), today, sign, fetched, now);
      step.val.Some? ==> GetReleaseCoverUrl(step.st, LATEST_ID, later).val.Some?
  {
  }
}

=== FILE: text.dfy ===
/** ASCII string helpers with the semantics of the JavaScript built-ins the catalog
    code uses: `split`, `join`, `toLowerCase`, `toUpperCase`, `/\s+/g` replacement,
    `replace` with a string pattern, `trim`, `parseInt(s, 10)` and number-to-string. */
module Text {
  import opened Types

  // ---------------------------------------------------------------- characters

  /** JavaScript `\s`, restricted to ASCII: tab, LF, VT, FF, CR and space. */
  predicate IsSpace(c: char)
  {
    c == ' ' || 9 <= c as int <= 13
  }

  predicate IsDigit(c: char)
  {
    '0' <= c <= '9'
  }

  predicate IsUpper(c: char)
  {
    'A' <= c <= 'Z'
  }

  predicate IsLower(c: char)
  {
    'a' <= c <= 'z'
  }

  function LowerChar(c: char): (r: char)
    ensures !IsUpper(r)
    ensures IsSpace(r) <==> IsSpace(c)
    ensures IsUpper(c) || r == c
  {
    if IsUpper(c) then (c as int + 32) as char else c
  }

  function UpperChar(c: char): (r: char)
    ensures !IsLower(r)
    ensures IsLower(c) || r == c
  {
    if IsLower(c) then (c as int - 32) as char else c
  }

  // ---------------------------------------------------------------- mapping

  /** `toLowerCase()` on ASCII. */
  function Lower(s: string): (r: string)
    ensures |r| == |s|
    ensures forall i :: 0 <= i < |s| ==> r[i] == LowerChar(s[i])
  {
    seq(|s|, i requires 0 <= i < |s| => LowerChar(s[i]))
  }

  /** `replace(/x/g, y)` for a one-character pattern. */
  function ReplaceChar(s: string, x: char, y: char): (r: string)
    ensures |r| == |s|
    ensures forall i :: 0 <= i < |s| ==> r[i] == (if s[i] == x then y else s[i])
  {
    seq(|s|, i requires 0 <= i < |s| => if s[i] == x then y else s[i])
  }

  predicate NoSpace(s: string)
  {
    forall i :: 0 <= i < |s| ==> !IsSpace(s[i])
  }

  /** Drops leading whitespace. */
  function SkipSpaces(s: string): (r: string)
    ensures |r| <= |s|
    ensures r == s[|s| - |r|..]
    ensures r == [] || !IsSpace(r[0])
    ensures forall i :: 0 <= i < |s| - |r| ==> IsSpace(s[i])
  {
    if s != [] && IsSpace(s[0]) then SkipSpaces(s[1..]) else s
  }

  /** `replace(/\s+/g, '-')`: every maximal run of whitespace becomes one hyphen. */
  function CollapseSpaces(s: string): (r: string)
    ensures NoSpace(r)
    ensures |r| <= |s|
    ensures forall c :: c in r ==> c == '-' || c in s
    decreases |s|
  {
    if s == [] then []
    else if IsSpace(s[0]) then "-" + CollapseSpaces(SkipSpaces(s[1..]))
    else [s[0]] + CollapseSpaces(s[1..])
  }

  /** A whitespace-free word in front passes through unchanged. */
  lemma {:induction false} CollapseKeepsWord(a: string, s: string)
    requires NoSpace(a)
    ensures CollapseSpaces(a + s) == a + CollapseSpaces(s)
    decreases |a|
  {
    if a == [] {
      assert a + s == s;
    } else {
      assert (a + s)[0] == a[0] && !IsSpace(a[0]);
      assert (a + s)[1..] == a[1..] + s;
      assert NoSpace(a[1..]);
      CollapseKeepsWord(a[1..], s);
      assert a == [a[0]] + a[1..];
    }
  }

  /** A whitespace run, however long, becomes one hyphen. With `CollapseKeepsWord`
      and `CollapseSpaces([]) == []` this fixes the result of every input. */
  lemma CollapseRun(w: string, b: string)
    requires w != [] && forall i :: 0 <= i < |w| ==> IsSpace(w[i])
    requires b == [] || !IsSpace(b[0])
    ensures CollapseSpaces(w + b) == "-" + CollapseSpaces(b)
  {
    assert (w + b)[0] == w[0];
    assert (w + b)[1..] == w[1..] + b;
    SkipSpacesOf(w[1..], b);
  }

  /** Text without whitespace has no runs to collapse. */
  lemma {:induction false} CollapseSpacesNoop(s: string)
    ensures NoSpace(s) ==> CollapseSpaces(s) == s
    decreases |s|
  {
    if s != [] && NoSpace(s) {
      assert NoSpace(s[1..]);
      CollapseSpacesNoop(s[1..]);
    }
  }

  /** The identifier normal form used for album and song ids:
      whitespace runs become `-`, then the string is lower-cased. The result is a
      fixed point of both steps, so normalising twice is normalising once; it never
      grows, introduces no `/`, and for text without whitespace it is only the
      lower-casing. */
  function NormalizeId(s: string): (r: string)
    ensures NoSpace(r)
    ensures forall i :: 0 <= i < |r| ==> !IsUpper(r[i])
    ensures Lower(CollapseSpaces(r)) == r
    ensures |r| <= |s|
    ensures NoSpace(s) ==> r == Lower(s)
    ensures '/' !in s ==> '/' !in r
  {
    var c := CollapseSpaces(s);
    var r := Lower(c);
    CollapseSpacesNoop(s);
    CollapseSpacesNoop(r);
    assert Lower(r) == r;
    assert '/' !in s ==> '/' !in r by {
      if '/' !in s {
        forall i | 0 <= i < |r|
          ensures r[i] != '/'
        {
          assert c[i] in c;
        }
      }
    }
    r
  }

  /** The id rule, word by word: a whitespace-free word is lower-cased, a
      whitespace run becomes one `-`, and the empty name gives the empty id. */
  lemma NormalizeIdRule(a: string, w: string, b: string)
    requires NoSpace(a)
    requires w != [] && forall i :: 0 <= i < |w| ==> IsSpace(w[i])
    requires b == [] || !IsSpace(b[0])
    ensures NormalizeId([]) == []
    ensures NormalizeId(a + (w + b)) == Lower(a) + ("-" + NormalizeId(b))
  {
    var c := CollapseSpaces(b);
    var s := a + (w + b);
    CollapseKeepsWord(a, w + b);
    CollapseRun(w, b);
    assert CollapseSpaces(s) == a + ("-" + c);
    assert NormalizeId(s) == Lower(a + ("-" + c));
    assert NormalizeId(b) == Lower(c);
    LowerAppend(a, "-" + c);
    LowerDash(c);
  }

  /** A leading `-` is not a capital, so lower-casing keeps it. */
  lemma LowerDash(c: string)
    ensures Lower("-" + c) == "-" + Lower(c)
  {
    var x := "-" + c;
    assert x[0] == '-' && LowerChar('-') == '-';
    assert forall i :: 0 < i < |x| ==> x[i] == c[i - 1];
  }

  /** Lower-casing works character by character, so it distributes over `+`. */
  lemma LowerAppend(x: string, y: string)
    ensures Lower(x + y) == Lower(x) + Lower(y)
  {
  }

  // ---------------------------------------------------------------- split / join

  /** `s.split(d)` for a one-character separator: always at least one piece. */
  function Split(s: string, d: char): (r: seq<string>)
    ensures |r| >= 1
    ensures forall i, j :: 0 <= i < |r| && 0 <= j < |r[i]| ==> r[i][j] != d
    decreases |s|
  {
    if s == [] then [[]]
    else if s[0] == d then [[]] + Split(s[1..], d)
    else
      var rest := Split(s[1..], d);
      [[s[0]] + rest[0]] + rest[1..]
  }

  /** `parts.join(sep)` for a one-character separator. */
  function Join(parts: seq<string>, sep: char): string
  {
    if |parts| == 0 then []
    else if |parts| == 1 then parts[0]
    else parts[0] + [sep] + Join(parts[1..], sep)
  }

  /** Splitting and re-joining on the same separator gives back the input. */
  lemma {:induction false} JoinSplit(s: string, d: char)
    ensures Join(Split(s, d), d) == s
    decreases |s|
  {
    if s == [] {
    } else if s[0] == d {
      JoinSplit(s[1..], d);
      assert Split(s, d) == [[]] + Split(s[1..], d);
    } else {
      var rest := Split(s[1..], d);
      JoinSplit(s[1..], d);
      if |rest| == 1 {
        assert Join(Split(s, d), d) == [s[0]] + rest[0];
        assert rest[0] == Join(rest, d);
      } else {
        var parts := [[s[0]] + rest[0]] + rest[1..];
        assert parts[1..] == rest[1..];
        assert Join(parts, d) == ([s[0]] + rest[0]) + [d] + Join(rest[1..], d);
        assert Join(rest, d) == rest[0] + [d] + Join(rest[1..], d);
      }
    }
  }

  /** Splitting a string that starts with a separator-free piece and a separator. */
  lemma {:induction false} SplitAfterPiece(p: string, d: char, s: string)
    requires d !in p
    ensures Split(p + [d] + s, d) == [p] + Split(s, d)
    decreases |p|
  {
    if p == [] {
      assert ([] + [d] + s)[1..] == s;
    } else {
      assert (p + [d] + s)[1..] == p[1..] + [d] + s;
      SplitAfterPiece(p[1..], d, s);
      assert [p[0]] + p[1..] == p;
    }
  }

  /** The last piece of `s.split(d)`, i.e. `split(d).pop()`: the separator-free
      suffix of `s` that is either all of `s` or preceded by a separator. */
  function LastPiece(s: string, d: char): (r: string)
    ensures forall j :: 0 <= j < |r| ==> r[j] != d
    ensures |r| <= |s| && s[|s| - |r|..] == r
    ensures |r| == |s| || s[|s| - |r| - 1] == d
  {
    var parts := Split(s, d);
    JoinSplit(s, d);
    JoinLast(parts, d);
    parts[|parts| - 1]
  }

  /** A join ends with its last part, preceded by the separator when there is more
      than one part. */
  lemma {:induction false} JoinLast(parts: seq<string>, sep: char)
    requires |parts| >= 1
    ensures |parts| == 1 ==> Join(parts, sep) == parts[0]
    ensures |parts| > 1 ==>
      Join(parts, sep) == Join(parts[..|parts| - 1], sep) + [sep] + parts[|parts| - 1]
    decreases |parts|
  {
    if |parts| > 1 {
      var n := |parts|;
      var tail := parts[1..];
      JoinLast(tail, sep);
      assert tail[|tail| - 1] == parts[n - 1];
      if |tail| > 1 {
        var init := parts[..n - 1];
        assert init[0] == parts[0] && init[1..] == tail[..|tail| - 1];
        assert Join(init, sep) == parts[0] + [sep] + Join(tail[..|tail| - 1], sep);
      } else {
        assert parts[..n - 1] == [parts[0]];
      }
    }
  }

  // ---------------------------------------------------------------- affixes

  predicate StartsWith(s: string, p: string)
  {
    |p| <= |s| && s[..|p|] == p
  }

  predicate EndsWith(s: string, p: string)
  {
    |p| <= |s| && s[|s| - |p|..] == p
  }

  /** Removes the last `n` characters. */
  function DropLast(s: string, n: nat): (r: string)
    requires n <= |s|
    ensures |r| == |s| - n
  {
    s[..|s| - n]
  }

  /** `p` occurs in `s` starting at index `j`. */
  predicate OccursAt(s: string, p: string, j: nat)
  {
    j + |p| <= |s| && s[j..j + |p|] == p
  }

  /** Index of the first occurrence of `p` in `s` at or after `from`. */
  function IndexFrom(s: string, p: string, from: nat): (r: Option<nat>)
    requires from <= |s|
    ensures r.Some? ==> from <= r.value && OccursAt(s, p, r.value)
    ensures r.Some? ==> forall j: nat :: from <= j < r.value ==> !OccursAt(s, p, j)
    ensures r.None? ==> forall j: nat :: from <= j ==> !OccursAt(s, p, j)
    decreases |s| - from
  {
    if from + |p| > |s| then None
    else if s[from..from + |p|] == p then Some(from)
    else if from == |s| then None
    else IndexFrom(s, p, from + 1)
  }

  /** `s.indexOf(p)` as an option. */
  function IndexOf(s: string, p: string): (r: Option<nat>)
    ensures r.Some? ==> OccursAt(s, p, r.value)
    ensures r.Some? ==> forall j: nat :: j < r.value ==> !OccursAt(s, p, j)
    ensures r.None? ==> forall j: nat :: !OccursAt(s, p, j)
  {
    IndexFrom(s, p, 0)
  }

  /** `s.replace(p, y)` with a string pattern: only the first occurrence is replaced. */
  function ReplaceFirst(s: string, p: string, y: string): (r: string)
  {
    match IndexOf(s, p)
    case None => s
    case Some(i) => s[..i] + y + s[i + |p|..]
  }

  /** Removing the first occurrence of a prefix that the string starts with. */
  lemma RemoveLeadingOccurrence(p: string, rest: string)
    ensures ReplaceFirst(p + rest, p, "") == rest
  {
    var s := p + rest;
    assert OccursAt(s, p, 0);
    var i := IndexOf(s, p);
    assert i == Some(0);
    assert s[|p|..] == rest;
  }

  /** Removing the first `/` of a string whose only `/` is the last character. */
  lemma RemoveTrailingSlash(n: string)
    requires forall j :: 0 <= j < |n| ==> n[j] != '/'
    ensures ReplaceFirst(n + "/", "/", "") == n
  {
    var s := n + "/";
    assert OccursAt(s, "/", |n|);
    forall j: nat | j < |n|
      ensures !OccursAt(s, "/", j)
    {
      assert s[j..j + 1] == [n[j]];
    }
    assert IndexOf(s, "/") == Some(|n|);
    assert s[..|n|] == n;
  }

  // ---------------------------------------------------------------- trim

  function TrimStart(s: string): (r: string)
    ensures r == SkipSpaces(s)
  {
    SkipSpaces(s)
  }

  function TrimEnd(s: string): (r: string)
    ensures |r| <= |s| && r == s[..|r|]
    ensures r == [] || !IsSpace(r[|r| - 1])
    ensures forall i :: |r| <= i < |s| ==> IsSpace(s[i])
  {
    if s != [] && IsSpace(s[|s| - 1]) then TrimEnd(s[..|s| - 1]) else s
  }

  /** `trim()`: the slice of `s` left once the whitespace at both ends is removed;
      no whitespace remains at either end. */
  function Trim(s: string): (r: string)
    ensures r == [] || (!IsSpace(r[0]) && !IsSpace(r[|r| - 1]))
    ensures exists i, j :: 0 <= i <= j <= |s| && r == s[i..j]
              && (forall k :: 0 <= k < i ==> IsSpace(s[k]))
              && (forall k :: j <= k < |s| ==> IsSpace(s[k]))
  {
    var u := TrimStart(s);
    var t := TrimEnd(u);
    assert t == [] || t[0] == u[0];
    var i := |s| - |u|;
    var j := i + |t|;
    assert t == s[i..j];
    assert forall k :: j <= k < |s| ==> IsSpace(s[k]) by {
      forall k | j <= k < |s|
        ensures IsSpace(s[k])
      {
        assert s[k] == u[k - i];
      }
    }
    t
  }

  // ---------------------------------------------------------------- numbers

  function DigitChar(d: nat): (c: char)
    requires d < 10
    ensures IsDigit(c)
  {
    ('0' as int + d) as char
  }

  function DigitValue(c: char): nat
    requires IsDigit(c)
  {
    c as int - '0' as int
  }

  predicate AllDigits(s: string)
  {
    forall i :: 0 <= i < |s| ==> IsDigit(s[i])
  }

  /** The value of a decimal digit string, most significant digit first. */
  function DigitsValue(s: string): nat
    requires AllDigits(s)
  {
    if s == [] then 0 else DigitsValue(s[..|s| - 1]) * 10 + DigitValue(s[|s| - 1])
  }

  /** `${n}` for a non-negative integer: decimal without leading zeros. */
  function NatToString(n: nat): (r: string)
    ensures |r| >= 1 && AllDigits(r)
    ensures |r| > 1 ==> r[0] != '0'
  {
    if n < 10 then [DigitChar(n)] else NatToString(n / 10) + [DigitChar(n % 10)]
  }

  /** Reading back the decimal rendering of `n` gives `n`. */
  lemma {:induction false} NatToStringValue(n: nat)
    ensures DigitsValue(NatToString(n)) == n
  {
    if n >= 10 {
      var r := NatToString(n);
      NatToStringValue(n / 10);
      assert r[..|r| - 1] == NatToString(n / 10);
    }
  }

  /** The longest prefix of digits. */
  function DigitPrefix(s: string): (r: string)
    ensures AllDigits(r) && |r| <= |s| && r == s[..|r|]
    ensures |r| == |s| || !IsDigit(s[|r|])
  {
    if s != [] && IsDigit(s[0]) then [s[0]] + DigitPrefix(s[1..]) else []
  }

  /** `parseInt(s, 10)` on ASCII input: leading whitespace, an optional sign, then the
      longest run of digits; `None` stands for NaN (no digit after the sign). */
  function ParseInt(s: string): (r: Option<int>)
    ensures r.Some? ==> exists ds :: ds != [] && AllDigits(ds) && (r.value == DigitsValue(ds) || r.value == -(DigitsValue(ds) as int))
  {
    ReadSigned(SkipSpaces(s))
  }

  /** What `parseInt` reads once the leading whitespace is gone: an optional sign,
      then the longest run of digits. */
  function ReadSigned(t: string): (r: Option<int>)
    ensures r.Some? ==> exists ds :: ds != [] && AllDigits(ds) && (r.value == DigitsValue(ds) || r.value == -(DigitsValue(ds) as int))
  {
    var neg := |t| > 0 && t[0] == '-';
    var body := if |t| > 0 && (t[0] == '-' || t[0] == '+') then t[1..] else t;
    var ds := DigitPrefix(body);
    if ds == [] then None
    else Some(if neg then -(DigitsValue(ds) as int) else DigitsValue(ds))
  }

  /** `parseInt` reads back the decimal rendering of a non-negative integer. */
  lemma ParseIntNatToString(n: nat)
    ensures ParseInt(NatToString(n)) == Some(n)
  {
    var s := NatToString(n);
    assert SkipSpaces(s) == s;
    assert DigitPrefix(s) == s by { DigitPrefixAll(s); }
    NatToStringValue(n);
  }

  /** Skipping whitespace in front of text that does not start with whitespace
      leaves exactly that text. */
  lemma {:induction false} SkipSpacesOf(ws: string, t: string)
    requires forall i :: 0 <= i < |ws| ==> IsSpace(ws[i])
    requires t == [] || !IsSpace(t[0])
    ensures SkipSpaces(ws + t) == t
    decreases |ws|
  {
    if ws == [] {
      assert ws + t == t;
    } else {
      assert (ws + t)[1..] == ws[1..] + t;
      SkipSpacesOf(ws[1..], t);
    }
  }

  /** The digit run at the front of `ds + rest` is `ds` when `rest` does not start
      with a digit. */
  lemma {:induction false} DigitPrefixOf(ds: string, rest: string)
    requires AllDigits(ds)
    requires rest == [] || !IsDigit(rest[0])
    ensures DigitPrefix(ds + rest) == ds
    decreases |ds|
  {
    if ds == [] {
      assert ds + rest == rest;
    } else {
      assert (ds + rest)[1..] == ds[1..] + rest;
      DigitPrefixOf(ds[1..], rest);
    }
  }

  /** `parseInt` reads whitespace, an optional sign and a run of digits, and stops
      at the first character after the run, whatever follows. */
  lemma ParseIntReads(s: string, ws: string, sign: string, ds: string, rest: string)
    requires s == ws + sign + ds + rest
    requires forall i :: 0 <= i < |ws| ==> IsSpace(ws[i])
    requires sign == "" || sign == "-" || sign == "+"
    requires ds != [] && AllDigits(ds)
    requires rest == [] || !IsDigit(rest[0])
    ensures ParseInt(s) == Some(if sign == "-" then -(DigitsValue(ds) as int) else DigitsValue(ds))
  {
    var t := sign + (ds + rest);
    assert s == ws + t;
    assert t == [] || !IsSpace(t[0]) by {
      assert sign == "" ==> t[0] == ds[0];
    }
    SkipSpacesOf(ws, t);
    ReadSignedDigits(t, sign, ds, rest);
  }

  lemma ReadSignedDigits(t: string, sign: string, ds: string, rest: string)
    requires t == sign + (ds + rest)
    requires sign == "" || sign == "-" || sign == "+"
    requires ds != [] && AllDigits(ds)
    requires rest == [] || !IsDigit(rest[0])
    ensures ReadSigned(t) == Some(if sign == "-" then -(DigitsValue(ds) as int) else DigitsValue(ds))
  {
    DigitPrefixOf(ds, rest);
    if sign == "" {
      assert t == ds + rest;
      assert IsDigit(t[0]);
    } else {
      assert t[1..] == ds + rest;
    }
  }

  /** `parseInt` is NaN when no digit follows the whitespace and the optional sign. */
  lemma ParseIntNaN(s: string, ws: string, sign: string, rest: string)
    requires s == ws + sign + rest
    requires forall i :: 0 <= i < |ws| ==> IsSpace(ws[i])
    requires sign == "" || sign == "-" || sign == "+"
    requires rest == [] || !IsDigit(rest[0])
    requires sign == "" && rest != [] ==> !IsSpace(rest[0]) && rest[0] != '-' && rest[0] != '+'
    ensures ParseInt(s) == None
  {
    var t := sign + rest;
    assert s == ws + t;
    SkipSpacesOf(ws, t);
    ReadSignedNone(t, sign, rest);
  }

  lemma ReadSignedNone(t: string, sign: string, rest: string)
    requires t == sign + rest
    requires sign == "" || sign == "-" || sign == "+"
    requires rest == [] || !IsDigit(rest[0])
    requires sign == "" && rest != [] ==> rest[0] != '-' && rest[0] != '+'
    ensures ReadSigned(t) == None
  {
    if sign != "" {
      assert t[1..] == rest;
    }
  }

  lemma {:induction false} DigitPrefixAll(s: string)
    requires AllDigits(s)
    ensures DigitPrefix(s) == s
  {
    if s != [] {
      DigitPrefixAll(s[1..]);
    }
  }
}

=== FILE: types.dfy ===
/** Catalog entities shared by the cache, the resolution layer and the player. */
module Types {

  /** The conventional Some/None datatype, used for `undefined`/`null` returns. */
  datatype Option<+T> = None | Some(value: T)

  /** Every catalog entry is attributed to this artist. */
  const ARTIST: string := "DRIP SIFU"

  /** A track. `key` is the object-store key of the audio file; `album` is the
      display title of the owning album (not its id). */
  datatype Song = Song(id: string, title: string, artist: string, key: string,
                       duration: real, album: string)

  /** An album: its cover object key and its songs in listing order. */
  datatype Album = Album(id: string, title: string, artist: string, coverKey: string,
                         songs: seq<Song>)

  /** One of the two singleton release slots. `key` is the audio key, or "" when the
      slot has no audio preview. */
  datatype Release = Release(id: string, title: string, artist: string, coverKey: string,
                             releaseDate: string, key: string)

  const LATEST_ID: string := "latest-release"
  const UPCOMING_ID: string := "upcoming-release"

  /** The set of object keys of an album's songs. */
  function SongKeys(songs: seq<Song>): set<string>
  {
    set s | s in songs :: s.key
  }
}
